=== FILE: README.md ===
# pypan raw-file reader, modelled in Dafny

pypan reads SPICE-style "raw" waveform files. A raw file starts with a text
header. Its info lines ("Flags:", "No. Variables:", "No. Points:") give the data
type and the two counts. The line "Variables:" starts a tab-separated list of
variables (index, name, unit). The line "Binary:" ends the header, and a block
of float64 values follows it. The values are stored sample by sample: for each
sample point, one value per variable, or a real/imaginary pair per variable
when the data are complex.

This project models the reader in `src/pypan/utils.py`:

* `get_vars_list`. It decodes every line as ASCII, falling back to
  ISO-8859-1, and right-strips it. In header mode it collects the info
  dictionary; in list mode it collects names and units. It stops at
  "Binary:".
* `load_vars`. It checks the mode, classifies the selection as names or
  indices, and validates the selection against the header. It then decodes
  the binary block in one of two ways:
  * "whole" reads everything, then reshapes, transposes and builds complex
    values.
  * "chunk" reads one sample record at a time and keeps the selected
    variables.

  Finally it builds a dictionary keyed by name, or an array of rows in
  selection order.

The modules follow the structure of the program:

| module | file | what it holds |
|---|---|---|
| `Wrappers` | wrappers.dfy | `Option` and `Result` |
| `Text` | text.dfy | Python's `bytes.decode` with the fallback, `str.rstrip`, `str.split`, `in`, `int()` with the whitespace it skips, `str()` |
| `Header` | header.dfy | `get_vars_list`: a specification function `ParseHeader` on the decoded lines, and the line-by-line loop `RunHeader` proved equal to it |
| `Grid` | grid.dfy | the numpy shapes: C-order reshape, transpose, the `[0::2]`/`[1::2]` strides, complex pairing, and the contents of a two-dimensional array |
| `Decode` | decode.dfy | the two decoders: specification functions `WholeSpec` and `ChunkSpec`, and the methods that fill `array2` buffers as the source fills its numpy arrays |
| `Loader` | loader.dfy | `load_vars`: the checks and their error order (`Prepare`), the specification `LoadSpec`, and the method `LoadVars` proved equal to it |

The file is given to the model as its header lines (raw bytes, one sequence
per line) and the sequence of values after "Binary:". The float64 values are
an abstract type `T`. Every exception the source can raise is a constructor
of `HeaderError`, `DecodeError` or `LoadError`.

## Model

| member | source | states |
|---|---|---|
| Text.DecodeLatin1 | src/pypan/utils.py:31 | every byte becomes the character with the same code, one character per byte |
| Text.DecodeAscii | src/pypan/utils.py:29 | ASCII decoding succeeds exactly when every byte is below 128, and then gives the character of each byte |
| Text.RStrip | src/pypan/utils.py:29 | the result is a prefix of the line that does not end in whitespace, and everything removed is whitespace |
| Text.DecodeLine | src/pypan/utils.py:28-31 | whichever branch is taken, the line is the right-stripped ISO-8859-1 decoding of its bytes |
| Text.Latin1RoundTrip | src/pypan/utils.py:31 | the fallback decoding loses nothing: encoding it again gives the bytes back |
| Text.Find | src/pypan/utils.py:44 | the first position at or after a start where the separator occurs, or none when it occurs nowhere after it |
| Text.FindIsContains | src/pypan/utils.py:35-39 | the search used for splitting agrees with `sub in line`: it finds an occurrence exactly when `in` holds |
| Text.Split | src/pypan/utils.py:44 | `str.split` returns at least one field, and joining the fields with the separator gives the line back |
| Text.SplitFieldsFree | src/pypan/utils.py:44 | no field of a split contains the separator |
| Text.SplitCutsLeftmost | src/pypan/utils.py:44 | the cuts are the leftmost ones: in a field followed by a cut, the separator first occurs at the cut (so `"a\t\t\tb"` gives `"a"` and `"\tb"`) |
| Text.LastToken | src/pypan/utils.py:36 | `line.split(' ')[-1]` is the suffix of the line after its last space, or the whole line when it has none |
| Text.IntTrim | src/pypan/utils.py:38 | the text `int()` parses is the slice of the token between its leading and its trailing whitespace, counting as whitespace only what `int()` skips (ASCII whitespace, U+0085 and U+00A0); the slice has no such whitespace at either end |
| Text.IntRejectsSeparatorSpace | src/pypan/utils.py:38-40 | `int()` does not skip U+001C, which `str.isspace` accepts: a count line whose token is U+001C followed by `5` is rejected |
| Text.ParseShowRoundTrip | src/pypan/utils.py:38-40 | `int()` reads back every integer written in decimal, negative ones included |
| Header.IndexOfLine | src/pypan/utils.py:33-34 | the first line equal to the marker at or after a position, or the end, with no earlier match |
| Header.HeaderLine | src/pypan/utils.py:35-40 | a header-mode line fails exactly when it is a count line whose last token `int()` rejects; otherwise the info record is updated by the first matching test |
| Header.RunHeader | src/pypan/utils.py:22-48 | the line-by-line loop returns exactly `ParseHeader` of the lines: the first bad count aborts, then the first entry with fewer than three fields; otherwise fields 1 and 2 of the entries and the info of the header-mode lines |
| Header.GetVarsList | src/pypan/utils.py:4-48 | reading the raw byte lines gives `ParseHeader` of their decodings |
| Header.InfoIsLastOfEachKind | src/pypan/utils.py:35-40 | each info key holds the last token of the last header-mode line of its kind, and is absent when there is no such line |
| Header.OtherLineIgnored | src/pypan/utils.py:32-40 | a header-mode line that matches none of the tests can be removed without changing the result |
| Header.HeaderAddsNoEntries | src/pypan/utils.py:32-46 | lines before "Variables:" contribute no names and no units |
| Header.StopsAtBinary | src/pypan/utils.py:42-43 | once "Binary:" has been reached in list mode, nothing after it changes the result |
| Header.ListingShape | src/pypan/utils.py:44-46 | names and units are as many as the entry lines; each entry has at least three fields, with the name in field 1 and the unit in field 2; the info comes from the lines before "Variables:" |
| Grid.Reshape | src/pypan/utils.py:123 | a run of rows × cols values reshapes to `rows` rows of `cols` entries |
| Grid.ReshapeAt | src/pypan/utils.py:123 | C order: cell (r, c) of the reshape is value r·cols + c |
| Grid.ReshapeRow | src/pypan/utils.py:123 | row r of the reshape is the r-th run of cols values |
| Grid.Transpose | src/pypan/utils.py:123 | `.T` swaps the two coordinates of every cell |
| Grid.TransposeTwice | src/pypan/utils.py:123 | transposing twice gives the matrix back |
| Grid.VariableRowsAt | src/pypan/utils.py:123-126 | in the per-variable view, cell (v, s) is value s·nv + v of the flat run |
| Grid.Evens | src/pypan/utils.py:125 | `[0::2]` has ⌈n/2⌉ entries, and entry k is value 2k |
| Grid.Odds | src/pypan/utils.py:126 | `[1::2]` has ⌊n/2⌋ entries, and entry k is value 2k+1 |
| Grid.StridesPartition | src/pypan/utils.py:125-126 | the two strides together hold every value exactly once |
| Grid.AsReal | src/pypan/utils.py:138 | a real record holds one sample per value, in order |
| Grid.AsComplex | src/pypan/utils.py:141 | the zip of the strides pairs values 2k and 2k+1 and drops an odd trailing value |
| Grid.MulIsProduct | src/pypan/utils.py:123 | the element count used for reshaping is the product of the two dimensions |
| Decode.Take | src/pypan/utils.py:142 | numpy fancy indexing succeeds exactly when every index is in [-n, n), and raises IndexError otherwise; the result has one entry per index |
| Decode.TakeAt | src/pypan/utils.py:148 | entry j of a selection is the element at the index, with negative indices counted from the end |
| Decode.Record | src/pypan/utils.py:138-140 | `fromfile` with a count reads at most that many values, and exactly the s-th record when the data hold it |
| Decode.RecordStep | src/pypan/utils.py:136-140 | consecutive reads from the file position return consecutive records |
| Decode.CompleteRecord | src/pypan/utils.py:138-141 | a complete record decodes to one sample per variable: real values, or pairs of adjacent values |
| Decode.WholeIsRecords | src/pypan/utils.py:120-130 | whole decoding succeeds exactly when the data size is num_samples × record width; otherwise reshape fails; cell (v, s) is variable v of record s |
| Decode.CombineComplex | src/pypan/utils.py:127-130 | the nested loops fill a fresh nv × ns array whose cell (i, j) is the complex value of re[i][j] and im[i][j] |
| Decode.WholeDecode | src/pypan/utils.py:120-130 | the whole-mode decoding returns `WholeSpec`: the reshaped, transposed real grid, or the complex grid built from the two strides |
| Decode.Pick | src/pypan/utils.py:142 | selecting from a record fails for an empty index array (numpy makes it float64) or for an index out of range, and for nothing else |
| Decode.ChunkSpec | src/pypan/utils.py:131-143 | a successful chunk decoding has one row per selected variable and num_samples columns |
| Decode.ChunkDecode | src/pypan/utils.py:131-143 | the record-by-record loop returns `ChunkSpec`: it raises when the selection is empty or an index does not fit some record, and otherwise cell (j, s) is the selected variable of record s |
| Decode.SetColumn | src/pypan/utils.py:142 | `blob[:, i] = col` writes column i and leaves every other cell unchanged |
| Decode.ChunkMatchesWhole | src/pypan/utils.py:120-143 | the two modes give the same rows when the data size is exact, the selection is not empty while num_samples > 0, and the indices are in range |
| Decode.NegativeIndexDisagreement | src/pypan/utils.py:98-148 | with num_samples = 0, an index below -num_vars, or a position at num_vars or beyond, makes whole mode raise IndexError while chunk mode returns an empty row |
| Decode.TrailingDataDisagreement | src/pypan/utils.py:120-142 | extra values at the end: whole mode raises and chunk mode returns data |
| Decode.EmptySelectionDisagreement | src/pypan/utils.py:105-142 | an empty selection: whole mode returns no rows and chunk mode raises IndexError |
| Decode.CheckedChunk | src/pypan/utils.py:131-143 | the corrected chunk reader succeeds only on data of the exact size and indices in range, with one row per index |
| Decode.CheckedChunkMatchesWhole | src/pypan/utils.py:120-143 | the corrected chunk reader equals whole mode for every input, including its errors |
| Loader.MaxOf | src/pypan/utils.py:99 | `np.max` is an element of the selection and no element exceeds it |
| Loader.FirstUnknown | src/pypan/utils.py:93-97 | the first selected name missing from the file, or none exactly when every name is present |
| Loader.CheckNames | src/pypan/utils.py:94-97 | the membership loop finds exactly `FirstUnknown` |
| Loader.IndexOf | src/pypan/utils.py:106 | `list.index` gives the first position holding the name |
| Loader.Positions | src/pypan/utils.py:105-106 | one position per selected name, each naming that variable in the file |
| Loader.ToMap | src/pypan/utils.py:146 | the dictionary's keys are exactly the selected names |
| Loader.KeyOrder | src/pypan/utils.py:146 | the dictionary's keys in insertion order hold each selected name once, and nothing else |
| Loader.KeyOrderFirstSeen | src/pypan/utils.py:146 | the keys come in the order in which the names first occur in the selection |
| Loader.ToMapSource | src/pypan/utils.py:146 | each key maps to the row of a selection entry with that name |
| Loader.ToMapLastWins | src/pypan/utils.py:146 | a name given more than once holds the row of its last position, as later assignments overwrite earlier ones |
| Loader.Finish | src/pypan/utils.py:102-103 | a plan exists exactly when num_vars, num_samples and the datatype are all in the header and neither count is negative; its counts are theirs, and the data are real exactly when the flags read "real" (the datatype itself is read at lines 122 and 132) |
| Loader.SelectNamesMeaning | src/pypan/utils.py:93-106 | a name selection passes exactly when every name is in the file and the counts and datatype are known, and it resolves to the positions of the names |
| Loader.SelectIndicesMeaning | src/pypan/utils.py:98-108 | an index selection passes exactly when it is all integers, each below num_vars, and the counts and datatype are known; the indices are kept as given |
| Loader.PrepareMeaning | src/pypan/utils.py:84-108 | the checks pass only when the header parses and the selection is all names or all indices; the plan takes its counts and type from the header |
| Loader.PrepareSucceeds | src/pypan/utils.py:84-108 | the checks pass exactly when the header parses and sets both counts (neither negative) and the datatype, and the selection is all names in the file or all indices below num_vars |
| Loader.BadModeFails | src/pypan/utils.py:80-81 | a mode other than "whole" and "chunk" fails with `BadMode`, whatever the file and the selection |
| Loader.MixedSelectionFails | src/pypan/utils.py:84-99 | a selection that is neither all names nor all indices fails with `BadSelection`: at once when an entry is not a scalar, else at `np.max` once the header has been read |
| Loader.HeaderFails | src/pypan/utils.py:91 | a header `get_vars_list` cannot read makes `load_vars` fail with that error |
| Loader.UnknownNameFails | src/pypan/utils.py:93-97 | a selection by name fails with `UnknownVariable` naming its first name that is not in the file |
| Loader.IndexTooLargeFails | src/pypan/utils.py:98-100 | a selection by index fails with `IndexTooLarge` when one of its indices is not below num_vars |
| Loader.ChecksPrecedeData | src/pypan/utils.py:80-108 | every failure of the mode and selection checks depends on the header lines alone, so it is the same whatever the binary data hold |
| Loader.PrepareLoad | src/pypan/utils.py:84-108 | the checking code returns exactly `Prepare` of the decoded header |
| Loader.LoadVars | src/pypan/utils.py:51-150 | `load_vars` returns exactly `LoadSpec`: the mode check, the selection checks in source order, decoding in the chosen mode, and then the dictionary or the rows |
| Loader.WholeLoadSucceeds | src/pypan/utils.py:120-148 | a whole-mode load succeeds exactly when the checks pass, the data hold num_samples records and every selected position is a valid row index |
| Loader.LoadSucceeds | src/pypan/utils.py:79-150 | with the checks passed, data of exact size, valid positions and a non-empty selection while num_samples > 0, load_vars succeeds in either mode |
| Loader.ModesAgree | src/pypan/utils.py:120-148 | the two reading modes return the same result when the data size is exact, the selection is not empty while num_samples > 0, and the indices are in range |
| Loader.ByNameMeaning | src/pypan/utils.py:145-146 | a name selection gives a dictionary whose keys are the selected names, in the order `KeyOrder` gives; each holds the row of the first file variable with that name |
| Loader.ByIndexMeaning | src/pypan/utils.py:147-148 | an index selection gives one row per selected index, in selection order, each the row of that variable |
| Loader.RowsAreRecords | src/pypan/utils.py:120-148 | in either mode, row j at sample s is the selected variable's value in record s |
| Loader.LoadChecked | src/pypan/utils.py:51-150 | `load_vars` with the corrected chunk reader behaves exactly as before in whole mode |
| Loader.CheckedModesAgree | src/pypan/utils.py:120-148 | with the corrected chunk reader, the two modes agree on every file and every selection |

## Left out

- `src/pypan/ui.py` and the command-line block at the end of `utils.py` (lines 153-184) are not part of this model.
- Loader.LoadVars: the default argument `mode='whole'` (line 51) is not a separate entry point; a call without a mode is `LoadVars(f, sel, "whole", zero)`, whose result is `LoadSpec(f, sel, "whole")`.
- File access is not modelled.
  - The file is given as its header lines and the values after "Binary:". The second pass over the header (lines 110-118) is not modelled: the values are taken to start where `get_vars_list` stops.
  - That pass stops at the first line equal to "Binary:" anywhere, while `get_vars_list` ignores such a line before "Variables:". For a file with a "Binary:" line in the header part, `load_vars` reads the rest of the header as float64 values; the model cannot express that file.
  - The model does not cover a file with no "Binary:" line, or no "Variables:" line. In that case the source reads on into the binary data as if it were text.
- Float64 values are an abstract type, with no arithmetic. `zero` is a parameter standing for `0.0` and `complex(0, 0)`, the initial fill of the arrays. The whole block is a sequence of values, so a file whose byte length is not a multiple of 8 is not modelled.
- Decode.WholeDecode, Decode.ChunkDecode: these assume `np.complex` is the built-in `complex`. That alias is gone from recent numpy, which would raise on those lines.
- Loader.Finish: a negative num_vars or num_samples is reported as `NegativeCount`. numpy would instead infer the dimension from -1, or read everything for a negative count.
- Loader.Prepare: selectors that are floats, booleans or numpy arrays are not modelled; a selection is names, integers or non-scalars.
  - A mixed selection of names and integers passes the classification, since strings are scalars. It then fails at `np.max`, which the model reports as `BadSelection`.
- Line 107 tests `type(variables) != np.array`. `np.array` is a function, not a type, so the test is always true, and the model always converts the selection.
- The source does not check that num_vars equals the number of listed variables, and neither does the model. A name whose position is not below num_vars makes whole mode raise (`IndexOutOfRange`).
- Text.ParseInt: Python 3.11 and later refuse `int()` on a string of more than 4300 digits; the model has no such limit.
- Decode.ChunkMatchesWhole, Loader.ModesAgree: the docstring presents the modes as two strategies for the same data, but they agree only under the stated hypotheses. The findings below show why.

## Findings

| source | as written | input that shows it | evidently intended | confidence | as-written member | corrected member |
|---|---|---|---|---|---|---|
| src/pypan/utils.py:136-142 | chunk mode reads num_samples records with `fromfile(count=...)` and never compares the data size with num_samples × num_vars, so extra values are ignored (whole mode's reshape rejects them) | a real file with num_vars = 1, num_samples = 1 and two values after "Binary:", selecting index 0 | both modes read the same data the same way, rejecting a size mismatch | medium, not executed | Decode.TrailingDataDisagreement | Decode.CheckedChunk |
| src/pypan/utils.py:99-148 | the index check only compares the largest index with num_vars, so an index below -num_vars passes, and a name selection is never compared with num_vars, so a name listed after the first num_vars entries passes too; with num_samples = 0, chunk mode never indexes a record and returns an empty row, while whole mode raises IndexError when it selects the row | indices [-5] on a real file with num_vars = 2, num_samples = 0 and no values; or the name of the second entry on a real file listing two variables with num_vars = 1, num_samples = 0 | both modes reject an index off the axis | medium, not executed | Decode.NegativeIndexDisagreement | Decode.CheckedChunk |
| src/pypan/utils.py:106-142 | an empty name selection makes `np.array([])` a float64 array; chunk mode indexes each record with it and raises IndexError (whole mode returns an empty dictionary) | an empty selection in chunk mode on a file with num_samples = 1 | an empty dictionary, as in whole mode | medium, not executed | Decode.EmptySelectionDisagreement | Decode.CheckedChunk |

In the model, `Loader.LoadVars` and `Loader.LoadSpec` keep the behaviour as
written. `Loader.LoadChecked` is the reader with the corrected chunk mode:
`Decode.CheckedChunkMatchesWhole` proves that this chunk mode agrees with
whole mode on every input, and `Loader.CheckedModesAgree` proves the same for
the whole reader.

=== FILE: decode.dfy ===
/**
 * The two ways load_vars turns the binary section of a raw file into rows of
 * samples: 'whole' reads every value at once, reshapes and transposes it, and
 * then picks rows; 'chunk' reads one sample record at a time and keeps only
 * the selected positions of each record.
 *
 * The binary section is modelled as the sequence of float64 values that
 * follow the "Binary:" line; the values themselves are of an abstract type T.
 */
module Decode {
  import opened Wrappers
  import opened Grid

  /** What numpy raises: a reshape of the wrong size, an index off the axis, a float-typed index array. */
  datatype DecodeError = BadShape | IndexOutOfRange | EmptyIndexArray

  /** An index numpy accepts on an axis of length n: negative ones count from the end. */
  predicate InRange(i: int, n: nat) {
    -(n as int) <= i < n
  }

  predicate AllInRange(idx: seq<int>, n: nat) {
    forall j :: 0 <= j < |idx| ==> InRange(idx[j], n)
  }

  /** The position a valid index denotes. */
  function Wrap(i: int, n: nat): (k: nat)
    requires InRange(i, n)
    ensures k < n
  {
    if i < 0 then i + n else i
  }

  /** Fancy indexing xs[idx]: one element per index, IndexError if any index is off the axis. */
  function Take<X>(xs: seq<X>, idx: seq<int>): (r: Result<seq<X>, DecodeError>)
    ensures r.Ok? <==> AllInRange(idx, |xs|)
    ensures r.Err? ==> r.error == IndexOutOfRange
    ensures r.Ok? ==> |r.value| == |idx|
  {
    if AllInRange(idx, |xs|) then
      Ok(seq(|idx|, j requires 0 <= j < |idx| => xs[Wrap(idx[j], |xs|)]))
    else Err(IndexOutOfRange)
  }

  /** Element j of a successful Take is the element its index denotes. */
  lemma TakeAt<X>(xs: seq<X>, idx: seq<int>, j: nat)
    requires AllInRange(idx, |xs|) && j < |idx|
    ensures Take(xs, idx).value[j] == xs[Wrap(idx[j], |xs|)]
  {
  }

  /** The number of float64 values per sample record: one per variable, two when complex. */
  function Width(isReal: bool, nv: nat): nat {
    if isReal then nv else nv + nv
  }

  function Min(a: nat, b: nat): nat {
    if a <= b then a else b
  }

  // ---------------------------------------------------------------- the file layout

  /**
   * The s-th read of Width values, as np.fromfile with a count returns it:
   * fewer values, or none, once the data runs out.
   */
  function Record<T>(payload: seq<T>, w: nat, s: nat): (tmp: seq<T>)
    ensures |tmp| <= w
    ensures Mul(s, w) + w <= |payload| ==> tmp == payload[Mul(s, w)..Mul(s, w) + w]
  {
    payload[Min(Mul(s, w), |payload|)..Min(Mul(s, w) + w, |payload|)]
  }

  /** The values of one record: float64s as they are, or consecutive pairs as complex numbers. */
  function Values<T>(tmp: seq<T>, isReal: bool): (vals: seq<Sample<T>>)
  {
    if isReal then AsReal(tmp) else AsComplex(tmp)
  }

  /** The samples read for sample point s, one per variable when the record is complete. */
  function SampleValues<T>(payload: seq<T>, isReal: bool, nv: nat, s: nat): seq<Sample<T>> {
    Values(Record(payload, Width(isReal, nv), s), isReal)
  }

  /** A complete record holds one sample per variable: value v, or values 2v and 2v + 1 when complex. */
  lemma CompleteRecord<T>(payload: seq<T>, isReal: bool, nv: nat, s: nat)
    requires Mul(s, Width(isReal, nv)) + Width(isReal, nv) <= |payload|
    ensures |SampleValues(payload, isReal, nv, s)| == nv
    ensures forall v :: 0 <= v < nv ==>
      var at := Mul(s, Width(isReal, nv));
      SampleValues(payload, isReal, nv, s)[v] ==
        (if isReal then Real(payload[at + v]) else Complex(payload[at + 2 * v], payload[at + 2 * v + 1]))
  {
  }

  // ---------------------------------------------------------------- whole mode

  /** Every cell of a grid of float64 values, as real samples. */
  function RealRows<T>(g: seq<seq<T>>): (rows: seq<seq<Sample<T>>>)
    ensures |rows| == |g|
  {
    seq(|g|, v requires 0 <= v < |g| => AsReal(g[v]))
  }

  /** The complex grid whose real parts are re and imaginary parts im (the nested loop of whole mode). */
  function ComplexRows<T>(re: seq<seq<T>>, im: seq<seq<T>>, ns: nat): (rows: seq<seq<Sample<T>>>)
    requires |re| == |im| && Rectangular(re, ns) && Rectangular(im, ns)
    ensures |rows| == |re| && Rectangular(rows, ns)
  {
    seq(|re|, v requires 0 <= v < |re| =>
      seq(ns, s requires 0 <= s < ns => Complex(re[v][s], im[v][s])))
  }

  /**
   * Whole mode: all values are read, then reshaped to (num_samples, num_vars)
   * and transposed, after splitting the even and odd values into real and
   * imaginary parts when the data is complex. A size that does not fit the
   * shape makes the reshape fail.
   */
  function WholeSpec<T>(payload: seq<T>, isReal: bool, nv: nat, ns: nat): Result<seq<seq<Sample<T>>>, DecodeError> {
    if isReal then
      if |payload| != Mul(ns, nv) then Err(BadShape)
      else Ok(RealRows(VariableRows(payload, nv, ns)))
    else
      var re := Evens(payload);
      var im := Odds(payload);
      if |re| != Mul(ns, nv) || |im| != Mul(ns, nv) then Err(BadShape)
      else
        VariableRowsAt(re, nv, ns);
        VariableRowsAt(im, nv, ns);
        Ok(ComplexRows(VariableRows(re, nv, ns), VariableRows(im, nv, ns), ns))
  }

  /** Whole mode followed by the row selection of the final result (blob[i, :] for each selected index). */
  function WholeSelect<T>(payload: seq<T>, isReal: bool, nv: nat, ns: nat, idx: seq<int>): Result<seq<seq<Sample<T>>>, DecodeError> {
    match WholeSpec(payload, isReal, nv, ns)
    case Err(e) => Err(e)
    case Ok(g) => Take(g, idx)
  }

  /** Mul(s, 2n) == 2 * Mul(s, n). */
  lemma {:induction false} MulDouble(s: nat, n: nat)
    ensures Mul(s, n + n) == Mul(s, n) + Mul(s, n)
    decreases s
  {
    if s > 0 {
      MulDouble(s - 1, n);
    }
  }

  /**
   * Whole mode succeeds exactly when the data holds num_samples complete
   * records, and then row v, column s is variable v of record s.
   */
  lemma WholeIsRecords<T>(payload: seq<T>, isReal: bool, nv: nat, ns: nat)
    ensures WholeSpec(payload, isReal, nv, ns).Ok? <==> |payload| == Mul(ns, Width(isReal, nv))
    ensures WholeSpec(payload, isReal, nv, ns).Err? ==> WholeSpec(payload, isReal, nv, ns).error == BadShape
    ensures WholeSpec(payload, isReal, nv, ns).Ok? ==>
      var g := WholeSpec(payload, isReal, nv, ns).value;
      |g| == nv && Rectangular(g, ns) &&
      (forall s :: 0 <= s < ns ==> |SampleValues(payload, isReal, nv, s)| == nv) &&
      forall v, s :: 0 <= v < nv && 0 <= s < ns ==> g[v][s] == SampleValues(payload, isReal, nv, s)[v]
  {
    MulDouble(ns, nv);
    if |payload| == Mul(ns, Width(isReal, nv)) {
      var g := WholeSpec(payload, isReal, nv, ns).value;
      forall s | 0 <= s < ns ensures |SampleValues(payload, isReal, nv, s)| == nv {
        RowBound(s, ns, Width(isReal, nv));
        CompleteRecord(payload, isReal, nv, s);
      }
      if isReal {
        VariableRowsAt(payload, nv, ns);
      }
      forall v, s | 0 <= v < nv && 0 <= s < ns ensures g[v][s] == SampleValues(payload, isReal, nv, s)[v] {
        if isReal {
          WholeRealCell(payload, nv, ns, v, s);
        } else {
          WholeComplexCell(payload, nv, ns, v, s);
        }
      }
    }
  }

  lemma WholeRealCell<T>(payload: seq<T>, nv: nat, ns: nat, v: nat, s: nat)
    requires |payload| == Mul(ns, nv) && v < nv && s < ns
    ensures |SampleValues(payload, true, nv, s)| == nv
    ensures WholeSpec(payload, true, nv, ns).value[v][s] == SampleValues(payload, true, nv, s)[v]
  {
    RowBound(s, ns, nv);
    CompleteRecord(payload, true, nv, s);
    VariableRowsCell(payload, nv, ns, v, s);
  }

  lemma WholeComplexCell<T>(payload: seq<T>, nv: nat, ns: nat, v: nat, s: nat)
    requires |payload| == Mul(ns, nv) + Mul(ns, nv) && v < nv && s < ns
    ensures |SampleValues(payload, false, nv, s)| == nv
    ensures WholeSpec(payload, false, nv, ns).Ok?
    ensures WholeSpec(payload, false, nv, ns).value[v][s] == SampleValues(payload, false, nv, s)[v]
  {
    MulDouble(s, nv);
    MulDouble(ns, nv);
    RowBound(s, ns, nv + nv);
    CompleteRecord(payload, false, nv, s);
    ComplexGridCell(payload, nv, ns, v, s);
  }

  /** Cell (v, s) of the complex grid pairs the values 2k and 2k + 1, for k = s * nv + v. */
  lemma ComplexGridCell<T>(payload: seq<T>, nv: nat, ns: nat, v: nat, s: nat)
    requires |payload| == Mul(ns, nv) + Mul(ns, nv) && v < nv && s < ns
    ensures Mul(s, nv) + v < Mul(ns, nv)
    ensures WholeSpec(payload, false, nv, ns).Ok?
    ensures var k := Mul(s, nv) + v;
      WholeSpec(payload, false, nv, ns).value[v][s] == Complex(payload[2 * k], payload[2 * k + 1])
  {
    var re := Evens(payload);
    var im := Odds(payload);
    VariableRowsAt(re, nv, ns);
    VariableRowsAt(im, nv, ns);
    var rg := VariableRows(re, nv, ns);
    var ig := VariableRows(im, nv, ns);
    assert WholeSpec(payload, false, nv, ns) == Ok(ComplexRows(rg, ig, ns));
    VariableRowsCell(re, nv, ns, v, s);
    VariableRowsCell(im, nv, ns, v, s);
  }

  /** The nested loop of whole mode: a complex array filled cell by cell from the real and imaginary grids. */
  method CombineComplex<T>(re: seq<seq<T>>, im: seq<seq<T>>, nv: nat, ns: nat, zero: T) returns (blob: array2<Sample<T>>)
    requires |re| == nv && |im| == nv && Rectangular(re, ns) && Rectangular(im, ns)
    ensures fresh(blob)
    ensures Rows(blob) == ComplexRows(re, im, ns)
  {
    blob := new Sample<T>[nv, ns]((i, j) => Complex(zero, zero));
    for i := 0 to nv
      invariant forall i', j :: 0 <= i' < i && 0 <= j < ns ==> blob[i', j] == Complex(re[i'][j], im[i'][j])
    {
      for j := 0 to ns
        invariant forall i', j' :: 0 <= i' < i && 0 <= j' < ns ==> blob[i', j'] == Complex(re[i'][j'], im[i'][j'])
        invariant forall j' :: 0 <= j' < j ==> blob[i, j'] == Complex(re[i][j'], im[i][j'])
      {
        blob[i, j] := Complex(re[i][j], im[i][j]);
      }
    }
    SameCells(Rows(blob), ComplexRows(re, im, ns), ns);
  }

  /** Whole mode as load_vars performs it. */
  method WholeDecode<T>(payload: seq<T>, isReal: bool, nv: nat, ns: nat, zero: T) returns (r: Result<seq<seq<Sample<T>>>, DecodeError>)
    ensures r == WholeSpec(payload, isReal, nv, ns)
  {
    if isReal {
      if |payload| != Mul(ns, nv) {
        return Err(BadShape);
      }
      return Ok(RealRows(VariableRows(payload, nv, ns)));
    }
    var re := Evens(payload);
    var im := Odds(payload);
    if |re| != Mul(ns, nv) || |im| != Mul(ns, nv) {
      return Err(BadShape);
    }
    VariableRowsAt(re, nv, ns);
    VariableRowsAt(im, nv, ns);
    var blob := CombineComplex(VariableRows(re, nv, ns), VariableRows(im, nv, ns), nv, ns, zero);
    return Ok(Rows(blob));
  }

  // ---------------------------------------------------------------- chunk mode

  /** tmp[vars_indices] on one record; an empty index array is float-typed and rejected outright. */
  function Pick<X>(vals: seq<X>, idx: seq<int>): (r: Result<seq<X>, DecodeError>)
    ensures r.Err? <==> idx == [] || !AllInRange(idx, |vals|)
    ensures r.Err? ==> (r.error == EmptyIndexArray <==> idx == [])
  {
    if idx == [] then Err(EmptyIndexArray) else Take(vals, idx)
  }

  /** Every selected index is valid for the record of sample s. */
  predicate SampleFits<T>(payload: seq<T>, isReal: bool, nv: nat, idx: seq<int>, s: nat) {
    AllInRange(idx, |SampleValues(payload, isReal, nv, s)|)
  }

  predicate AllSamplesFit<T>(payload: seq<T>, isReal: bool, nv: nat, idx: seq<int>, ns: nat) {
    forall s :: 0 <= s < ns ==> SampleFits(payload, isReal, nv, idx, s)
  }

  /** The sample kept for selection j at sample point s. */
  function ChunkCell<T>(payload: seq<T>, isReal: bool, nv: nat, idx: seq<int>, j: nat, s: nat): Sample<T>
    requires j < |idx| && SampleFits(payload, isReal, nv, idx, s)
  {
    var vals := SampleValues(payload, isReal, nv, s);
    vals[Wrap(idx[j], |vals|)]
  }

  /**
   * Chunk mode: for each of the num_samples sample points one record is read
   * and the selected positions of it are kept as one column. The first
   * record already rejects an empty selection; a selected position missing
   * from any record is an IndexError. The data is never checked for size.
   */
  function ChunkSpec<T>(payload: seq<T>, isReal: bool, nv: nat, ns: nat, idx: seq<int>): (r: Result<seq<seq<Sample<T>>>, DecodeError>)
    ensures r.Ok? ==> |r.value| == |idx| && Rectangular(r.value, ns)
  {
    if ns > 0 && idx == [] then Err(EmptyIndexArray)
    else if !AllSamplesFit(payload, isReal, nv, idx, ns) then Err(IndexOutOfRange)
    else Ok(seq(|idx|, j requires 0 <= j < |idx| =>
      seq(ns, s requires 0 <= s < ns => ChunkCell(payload, isReal, nv, idx, j, s))))
  }

  /** Chunk mode as load_vars performs it: one fromfile per sample point into a preallocated array. */
  method ChunkDecode<T>(payload: seq<T>, isReal: bool, nv: nat, ns: nat, idx: seq<int>, zero: T)
    returns (r: Result<seq<seq<Sample<T>>>, DecodeError>)
    ensures r == ChunkSpec(payload, isReal, nv, ns, idx)
  {
    var blob := new Sample<T>[|idx|, ns]((j, s) => if isReal then Real(zero) else Complex(zero, zero));
    var w := Width(isReal, nv);
    var pos := 0;
    for s := 0 to ns
      invariant pos == Min(Mul(s, w), |payload|)
      invariant s > 0 ==> idx != []
      invariant forall s' :: 0 <= s' < s ==> SampleFits(payload, isReal, nv, idx, s')
      invariant forall j, s' :: 0 <= j < |idx| && 0 <= s' < s ==> blob[j, s'] == ChunkCell(payload, isReal, nv, idx, j, s')
    {
      RecordStep(payload, w, s, pos);
      var tmp := payload[pos..Min(pos + w, |payload|)];
      pos := Min(pos + w, |payload|);
      var vals := if isReal then AsReal(tmp) else AsComplex(tmp);
      var picked := Pick(vals, idx);
      if picked.Err? {
        ChunkFails(payload, isReal, nv, ns, idx, s);
        return Err(picked.error);
      }
      PickedCells(payload, isReal, nv, idx, s, picked.value);
      SetColumn(blob, s, picked.value);
    }
    ChunkSucceeds(payload, isReal, nv, ns, idx, Rows(blob));
    return Ok(Rows(blob));
  }

  /** blob[:, s] = col: column s takes the values of col, every other cell keeps its value. */
  method SetColumn<X>(blob: array2<X>, s: nat, col: seq<X>)
    requires s < blob.Length1 && |col| == blob.Length0
    modifies blob
    ensures forall j :: 0 <= j < blob.Length0 ==> blob[j, s] == col[j]
    ensures forall j, k :: 0 <= j < blob.Length0 && 0 <= k < blob.Length1 && k != s ==> blob[j, k] == old(blob[j, k])
  {
    forall j | 0 <= j < blob.Length0 {
      blob[j, s] := col[j];
    }
  }

  /** The next fromfile call continues where the previous one stopped. */
  lemma RecordStep<T>(payload: seq<T>, w: nat, s: nat, pos: nat)
    requires pos == Min(Mul(s, w), |payload|)
    ensures payload[pos..Min(pos + w, |payload|)] == Record(payload, w, s)
    ensures Min(pos + w, |payload|) == Min(Mul(s + 1, w), |payload|)
  {
  }

  lemma PickedCells<T>(payload: seq<T>, isReal: bool, nv: nat, idx: seq<int>, s: nat, picked: seq<Sample<T>>)
    requires Pick(SampleValues(payload, isReal, nv, s), idx) == Ok(picked)
    ensures SampleFits(payload, isReal, nv, idx, s) && |picked| == |idx|
    ensures forall j :: 0 <= j < |idx| ==> picked[j] == ChunkCell(payload, isReal, nv, idx, j, s)
  {
    var vals := SampleValues(payload, isReal, nv, s);
    forall j | 0 <= j < |idx| ensures picked[j] == ChunkCell(payload, isReal, nv, idx, j, s) {
      TakeAt(vals, idx, j);
    }
  }

  lemma ChunkFails<T>(payload: seq<T>, isReal: bool, nv: nat, ns: nat, idx: seq<int>, s: nat)
    requires s < ns && (s > 0 ==> idx != [])
    requires idx == [] || !SampleFits(payload, isReal, nv, idx, s)
    ensures ChunkSpec(payload, isReal, nv, ns, idx) ==
      Err(if idx == [] then EmptyIndexArray else IndexOutOfRange)
  {
  }

  lemma ChunkSucceeds<T>(payload: seq<T>, isReal: bool, nv: nat, ns: nat, idx: seq<int>, rows: seq<seq<Sample<T>>>)
    requires ns > 0 ==> idx != []
    requires AllSamplesFit(payload, isReal, nv, idx, ns)
    requires |rows| == |idx| && Rectangular(rows, ns)
    requires forall j, s :: 0 <= j < |idx| && 0 <= s < ns ==> rows[j][s] == ChunkCell(payload, isReal, nv, idx, j, s)
    ensures ChunkSpec(payload, isReal, nv, ns, idx) == Ok(rows)
  {
    SameCells(ChunkSpec(payload, isReal, nv, ns, idx).value, rows, ns);
  }

  // ---------------------------------------------------------------- the two modes agree

  /**
   * On data of exactly num_samples complete records, reading record by
   * record gives the rows whole mode selects, provided the selection is not
   * empty (an empty index array fails in chunk mode) and, when there are no
   * sample points at all, the indices are valid (chunk mode then never uses them).
   */
  lemma ChunkMatchesWhole<T>(payload: seq<T>, isReal: bool, nv: nat, ns: nat, idx: seq<int>)
    requires |payload| == Mul(ns, Width(isReal, nv))
    requires ns > 0 ==> idx != []
    requires ns == 0 ==> AllInRange(idx, nv)
    ensures ChunkSpec(payload, isReal, nv, ns, idx) == WholeSelect(payload, isReal, nv, ns, idx)
  {
    WholeIsRecords(payload, isReal, nv, ns);
    var g := WholeSpec(payload, isReal, nv, ns).value;
    forall s | 0 <= s < ns ensures |SampleValues(payload, isReal, nv, s)| == nv {
      RowBound(s, ns, Width(isReal, nv));
      CompleteRecord(payload, isReal, nv, s);
    }
    if !AllInRange(idx, nv) {
      assert ns > 0;
      assert !SampleFits(payload, isReal, nv, idx, 0);
    } else {
      var rows := Take(g, idx).value;
      forall j, s | 0 <= j < |idx| && 0 <= s < ns
        ensures SampleFits(payload, isReal, nv, idx, s) && rows[j][s] == ChunkCell(payload, isReal, nv, idx, j, s)
      {
        TakeAt(g, idx, j);
      }
      assert Rectangular(rows, ns) by {
        forall j | 0 <= j < |idx| ensures |rows[j]| == ns {
          TakeAt(g, idx, j);
        }
      }
      ChunkSucceeds(payload, isReal, nv, ns, idx, rows);
    }
  }

  // ---------------------------------------------------------------- where the two modes disagree

  /** Data longer than the header announces: whole mode rejects it, chunk mode reads the first record and ignores the rest. */
  lemma TrailingDataDisagreement<T>(x: T, y: T)
    ensures WholeSelect([x, y], true, 1, 1, [0]) == Err(BadShape)
    ensures ChunkSpec([x, y], true, 1, 1, [0]) == Ok([[Real(x)]])
  {
    assert Record([x, y], 1, 0) == [x];
    assert SampleValues([x, y], true, 1, 0) == [Real(x)];
    assert SampleFits([x, y], true, 1, [0], 0);
    assert AllSamplesFit([x, y], true, 1, [0], 1);
    assert ChunkCell([x, y], true, 1, [0], 0, 0) == Real(x);
    ChunkSucceeds([x, y], true, 1, 1, [0], [[Real(x)]]);
  }

  /** An empty selection: whole mode gives no rows, chunk mode fails on its first record. */
  lemma EmptySelectionDisagreement<T>(x: T)
    ensures WholeSelect([x], true, 1, 1, []) == Ok([])
    ensures ChunkSpec([x], true, 1, 1, []) == Err(EmptyIndexArray)
  {
    assert WholeSpec([x], true, 1, 1).Ok?;
  }

  /**
   * No sample points and an index off the variable axis: below -num_vars
   * (which the upper-bound check on an index selection lets through), or at
   * num_vars or beyond (the position of a name listed after the first
   * num_vars entries). Whole mode fails when it selects the row; chunk mode
   * never reads a record and returns an empty row.
   */
  lemma NegativeIndexDisagreement<T>()
    ensures WholeSelect<T>([], true, 2, 0, [-5]) == Err(IndexOutOfRange)
    ensures ChunkSpec<T>([], true, 2, 0, [-5]) == Ok([[]])
    ensures WholeSelect<T>([], true, 1, 0, [1]) == Err(IndexOutOfRange)
    ensures ChunkSpec<T>([], true, 1, 0, [1]) == Ok([[]])
  {
    assert |WholeSpec<T>([], true, 2, 0).value| == 2;
    var idx: seq<int> := [-5];
    assert !InRange(idx[0], 2);
    ChunkSucceeds<T>([], true, 2, 0, [-5], [[]]);
    assert |WholeSpec<T>([], true, 1, 0).value| == 1;
    var big: seq<int> := [1];
    assert !InRange(big[0], 1);
    ChunkSucceeds<T>([], true, 1, 0, [1], [[]]);
  }

  /**
   * Chunk mode with the checks whole mode makes implicitly: the data must
   * hold exactly num_samples records, every index must be valid, and an
   * empty selection gives no rows.
   */
  function CheckedChunk<T>(payload: seq<T>, isReal: bool, nv: nat, ns: nat, idx: seq<int>): (r: Result<seq<seq<Sample<T>>>, DecodeError>)
    ensures r.Ok? ==> |payload| == Mul(ns, Width(isReal, nv)) && AllInRange(idx, nv)
    ensures r.Ok? ==> |r.value| == |idx|
  {
    if |payload| != Mul(ns, Width(isReal, nv)) then Err(BadShape)
    else if !AllInRange(idx, nv) then Err(IndexOutOfRange)
    else if idx == [] then Ok([])
    else ChunkSpec(payload, isReal, nv, ns, idx)
  }

  /** With those checks the two reading modes agree on every input. */
  lemma CheckedChunkMatchesWhole<T>(payload: seq<T>, isReal: bool, nv: nat, ns: nat, idx: seq<int>)
    ensures CheckedChunk(payload, isReal, nv, ns, idx) == WholeSelect(payload, isReal, nv, ns, idx)
  {
    WholeIsRecords(payload, isReal, nv, ns);
    if |payload| == Mul(ns, Width(isReal, nv)) && AllInRange(idx, nv) && idx != [] {
      ChunkMatchesWhole(payload, isReal, nv, ns, idx);
    }
  }
}

=== FILE: grid.dfy ===
/**
 * The array shapes the reader builds with numpy: the flat run of float64
 * values after the "Binary:" line, reshaped in C order to one row per sample,
 * transposed to one row per variable, and the even/odd strides that split
 * interleaved real and imaginary parts.
 */
module Grid {

  /** One stored value: a float64, or a complex number built from two of them. */
  datatype Sample<T> = Real(x: T) | Complex(re: T, im: T)

  /**
   * The product a * b, written as repeated addition so that the index
   * arithmetic of the proofs stays linear; MulIsProduct ties it to `*`.
   */
  function Mul(a: nat, b: nat): nat
    decreases a
  {
    if a == 0 then 0 else Mul(a - 1, b) + b
  }

  lemma {:induction false} MulIsProduct(a: nat, b: nat)
    ensures Mul(a, b) == a * b
    decreases a
  {
    if a > 0 {
      MulIsProduct(a - 1, b);
      assert (a - 1) * b + b == a * b;
    }
  }

  /** Row r of a block of rows rows with cols columns each ends inside the block. */
  lemma {:induction false} RowBound(r: nat, rows: nat, cols: nat)
    requires r < rows
    ensures Mul(r, cols) + cols <= Mul(rows, cols)
    decreases rows - r
  {
    if r + 1 < rows {
      RowBound(r + 1, rows, cols);
    }
  }

  /** np.reshape(flat, (rows, cols), 'C'): the first cols values form row 0, the next cols row 1, and so on. */
  function Reshape<T>(flat: seq<T>, rows: nat, cols: nat): (m: seq<seq<T>>)
    requires |flat| == Mul(rows, cols)
    ensures |m| == rows && Rectangular(m, cols)
    decreases rows
  {
    if rows == 0 then []
    else [flat[..cols]] + Reshape(flat[cols..], rows - 1, cols)
  }

  /** Every row of m has cols entries. */
  predicate Rectangular<T>(m: seq<seq<T>>, cols: nat) {
    forall r :: 0 <= r < |m| ==> |m[r]| == cols
  }

  /** The cells of a reshape, in C order: cell (r, c) is value r * cols + c. */
  lemma ReshapeAt<T>(flat: seq<T>, rows: nat, cols: nat)
    requires |flat| == Mul(rows, cols)
    ensures forall r :: 0 <= r < rows ==> Mul(r, cols) + cols <= |flat|
    ensures forall r, c :: 0 <= r < rows && 0 <= c < cols ==>
      Reshape(flat, rows, cols)[r][c] == flat[Mul(r, cols) + c]
  {
    forall r | 0 <= r < rows ensures Mul(r, cols) + cols <= |flat| {
      RowBound(r, rows, cols);
    }
    forall r, c | 0 <= r < rows && 0 <= c < cols
      ensures Reshape(flat, rows, cols)[r][c] == flat[Mul(r, cols) + c]
    {
      ReshapeCell(flat, rows, cols, r, c);
    }
  }

  lemma ReshapeCell<T>(flat: seq<T>, rows: nat, cols: nat, r: nat, c: nat)
    requires |flat| == Mul(rows, cols) && r < rows && c < cols
    ensures Mul(r, cols) + c < |flat| && Reshape(flat, rows, cols)[r][c] == flat[Mul(r, cols) + c]
  {
    ReshapeRow(flat, rows, cols, r);
  }

  /** Row r of a reshape is the r-th run of cols values. */
  lemma {:induction false} ReshapeRow<T>(flat: seq<T>, rows: nat, cols: nat, r: nat)
    requires |flat| == Mul(rows, cols) && r < rows
    ensures Mul(r, cols) + cols <= |flat|
    ensures Reshape(flat, rows, cols)[r] == flat[Mul(r, cols)..Mul(r, cols) + cols]
    decreases r
  {
    RowBound(r, rows, cols);
    if r > 0 {
      var rest := flat[cols..];
      ReshapeRow(rest, rows - 1, cols, r - 1);
      assert rest[Mul(r - 1, cols)..Mul(r - 1, cols) + cols] == flat[Mul(r, cols)..Mul(r, cols) + cols];
    }
  }

  /** The .T of a matrix whose rows all have cols entries. */
  function Transpose<T>(m: seq<seq<T>>, cols: nat): (t: seq<seq<T>>)
    requires Rectangular(m, cols)
    ensures |t| == cols && Rectangular(t, |m|)
    ensures forall c, r :: 0 <= c < cols && 0 <= r < |m| ==> t[c][r] == m[r][c]
  {
    seq(cols, c requires 0 <= c < cols => seq(|m|, r requires 0 <= r < |m| => m[r][c]))
  }

  /** Transposing twice gives the matrix back. */
  lemma TransposeTwice<T>(m: seq<seq<T>>, cols: nat)
    requires Rectangular(m, cols)
    ensures Transpose(Transpose(m, cols), |m|) == m
  {
    var t := Transpose(Transpose(m, cols), |m|);
    assert |t| == |m|;
    forall r | 0 <= r < |m| ensures t[r] == m[r] {
      assert |t[r]| == cols == |m[r]|;
    }
  }

  /**
   * The values laid out sample by sample, viewed one variable per row:
   * np.reshape(flat, (samples, vars), 'C').T.
   */
  function VariableRows<T>(flat: seq<T>, vars: nat, samples: nat): (g: seq<seq<T>>)
    requires |flat| == Mul(samples, vars)
    ensures |g| == vars
  {
    Transpose(Reshape(flat, samples, vars), vars)
  }

  /** Cell (v, s) of the per-variable view is value s * vars + v of the flat run. */
  lemma VariableRowsAt<T>(flat: seq<T>, vars: nat, samples: nat)
    requires |flat| == Mul(samples, vars)
    ensures Rectangular(VariableRows(flat, vars, samples), samples)
    ensures forall s :: 0 <= s < samples ==> Mul(s, vars) + vars <= |flat|
    ensures forall v, s :: 0 <= v < vars && 0 <= s < samples ==>
      VariableRows(flat, vars, samples)[v][s] == flat[Mul(s, vars) + v]
  {
    ReshapeAt(flat, samples, vars);
  }

  /** One cell of the per-variable view. */
  lemma VariableRowsCell<T>(flat: seq<T>, vars: nat, samples: nat, v: nat, s: nat)
    requires |flat| == Mul(samples, vars) && v < vars && s < samples
    ensures Mul(s, vars) + v < |flat|
    ensures |VariableRows(flat, vars, samples)[v]| == samples
    ensures VariableRows(flat, vars, samples)[v][s] == flat[Mul(s, vars) + v]
  {
    ReshapeCell(flat, samples, vars, s, v);
  }

  /** flat[0::2]. */
  function Evens<T>(flat: seq<T>): (e: seq<T>)
    ensures |e| == (|flat| + 1) / 2
    ensures forall k :: 0 <= k < |e| ==> e[k] == flat[2 * k]
  {
    seq((|flat| + 1) / 2, k requires 0 <= k < (|flat| + 1) / 2 => flat[2 * k])
  }

  /** flat[1::2]. */
  function Odds<T>(flat: seq<T>): (o: seq<T>)
    ensures |o| == |flat| / 2
    ensures forall k :: 0 <= k < |o| ==> o[k] == flat[2 * k + 1]
  {
    seq(|flat| / 2, k requires 0 <= k < |flat| / 2 => flat[2 * k + 1])
  }

  /** The two strides interleave back to the original run. */
  lemma StridesPartition<T>(flat: seq<T>)
    ensures |Evens(flat)| + |Odds(flat)| == |flat|
    ensures forall i :: 0 <= i < |flat| ==>
      flat[i] == if i % 2 == 0 then Evens(flat)[i / 2] else Odds(flat)[i / 2]
  {
  }

  /** Every value of a real run, wrapped as a real sample. */
  function AsReal<T>(flat: seq<T>): (r: seq<Sample<T>>)
    ensures |r| == |flat|
    ensures forall k :: 0 <= k < |r| ==> r[k] == Real(flat[k])
  {
    seq(|flat|, k requires 0 <= k < |flat| => Real(flat[k]))
  }

  /** The complex values [complex(r, i) for r, i in zip(flat[0::2], flat[1::2])]: a trailing odd value is dropped. */
  function AsComplex<T>(flat: seq<T>): (r: seq<Sample<T>>)
    ensures |r| == |flat| / 2
    ensures forall k :: 0 <= k < |r| ==> r[k] == Complex(flat[2 * k], flat[2 * k + 1])
  {
    var re := Evens(flat);
    var im := Odds(flat);
    seq(|im|, k requires 0 <= k < |im| => Complex(re[k], im[k]))
  }

  /** The contents of a two-dimensional array, row by row. */
  function Rows<T>(a: array2<T>): (m: seq<seq<T>>)
    reads a
    ensures |m| == a.Length0 && Rectangular(m, a.Length1)
    ensures forall i, j :: 0 <= i < a.Length0 && 0 <= j < a.Length1 ==> m[i][j] == a[i, j]
  {
    seq(a.Length0, i requires 0 <= i < a.Length0 reads a =>
      seq(a.Length1, j requires 0 <= j < a.Length1 reads a => a[i, j]))
  }

  /** Two rectangular matrices of the same shape that agree cell by cell are equal. */
  lemma SameCells<T>(m: seq<seq<T>>, n: seq<seq<T>>, cols: nat)
    requires |m| == |n| && Rectangular(m, cols) && Rectangular(n, cols)
    requires forall i, j :: 0 <= i < |m| && 0 <= j < cols ==> m[i][j] == n[i][j]
    ensures m == n
  {
    forall i | 0 <= i < |m| ensures m[i] == n[i] {
      assert |m[i]| == |n[i]|;
    }
  }
}

=== FILE: header.dfy ===
/**
 * The header parser of a raw file (get_vars_list): a line-driven state machine
 * that reads the info fields in header mode, switches to variable-list mode at
 * the exact line "Variables:", collects one name and one unit per entry line,
 * and stops at the exact line "Binary:".
 */
module Header {
  import opened Wrappers
  import opened Text

  /** The separator between the fields of a variable-list entry. */
  const Tab2: string := "\t\t"

  /**
   * The info dictionary (flags holds its "datatype" key): each key is present only once a line of its kind has
   * been read. The two counts are whatever int() made of the line's last token.
   */
  datatype Info = Info(flags: Option<string>, numVars: Option<int>, numSamples: Option<int>)

  /** What get_vars_list returns: names and units in file order, and the info record. */
  datatype Listing = Listing(variables: seq<string>, units: seq<string>, info: Info)

  /** int() rejected a count, or an entry line had fewer than three fields. */
  datatype HeaderError = BadCount | MissingFields

  /** How a line is treated in header mode, in the order the tests are made. */
  datatype Kind = VariablesMarker | FlagsLine | NumVarsLine | NumPointsLine | OtherLine

  const NoInfo := Info(None, None, None)

  function KindOf(line: string): Kind {
    if line == "Variables:" then VariablesMarker
    else if Contains(line, "Flags:") then FlagsLine
    else if Contains(line, "No. Variables:") then NumVarsLine
    else if Contains(line, "No. Points:") then NumPointsLine
    else OtherLine
  }

  /** A count line whose last token int() rejects: parsing aborts there. */
  predicate BadCountLine(line: string) {
    (KindOf(line) == NumVarsLine || KindOf(line) == NumPointsLine) &&
    ParseInt(LastToken(line)).None?
  }

  /** The effect of one header-mode line on the info record. */
  function Update(info: Info, line: string): Info {
    match KindOf(line)
    case FlagsLine => info.(flags := Some(LastToken(line)))
    case NumVarsLine => info.(numVars := ParseInt(LastToken(line)))
    case NumPointsLine => info.(numSamples := ParseInt(LastToken(line)))
    case _ => info
  }

  /** The info record after reading the header-mode lines hdr in order. */
  function InfoOf(hdr: seq<string>): Info
    decreases |hdr|
  {
    if hdr == [] then NoInfo else Update(InfoOf(hdr[..|hdr| - 1]), hdr[|hdr| - 1])
  }

  /** The position of the first line equal to target at or after from, or |lines| if there is none. */
  function IndexOfLine(lines: seq<string>, target: string, from: nat): (r: nat)
    requires from <= |lines|
    ensures from <= r <= |lines|
    ensures r < |lines| ==> lines[r] == target
    ensures forall k :: from <= k < r ==> lines[k] != target
    decreases |lines| - from
  {
    if from == |lines| then from
    else if lines[from] == target then from
    else IndexOfLine(lines, target, from + 1)
  }

  /** The position of the line that ends header mode, or |lines|. */
  function VarsStart(lines: seq<string>): (v: nat)
    ensures v <= |lines|
  {
    IndexOfLine(lines, "Variables:", 0)
  }

  /** The position of the line that ends the variable list, or |lines|. */
  function BinaryStart(lines: seq<string>): (b: nat)
    requires VarsStart(lines) < |lines|
    ensures VarsStart(lines) < b <= |lines|
  {
    IndexOfLine(lines, "Binary:", VarsStart(lines) + 1)
  }

  /** The entry lines: those after "Variables:" and before the terminating "Binary:". */
  function EntryLines(lines: seq<string>): seq<string> {
    var v := VarsStart(lines);
    if v == |lines| then [] else lines[v + 1..BinaryStart(lines)]
  }

  /** An entry line splits on the double tab into at least index, name and unit. */
  predicate WellFormedEntry(line: string) {
    |Split(line, Tab2)| >= 3
  }

  /** Field f of an entry line, as ss[f] after ss = line.split('\t\t'). */
  function Field(line: string, f: nat): string {
    var fields := Split(line, Tab2);
    if f < |fields| then fields[f] else ""
  }

  /** Field f of every entry line (1 for the name, 2 for the unit). */
  function Column(entries: seq<string>, f: nat): (r: seq<string>)
  {
    seq(|entries|, k requires 0 <= k < |entries| => Field(entries[k], f))
  }

  /** Some header-mode line is a count that int() rejects. */
  predicate HasBadCount(hdr: seq<string>) {
    exists i | 0 <= i < |hdr| :: BadCountLine(hdr[i])
  }

  /** Some entry line has fewer than three fields. */
  predicate HasBadEntry(entries: seq<string>) {
    exists k | 0 <= k < |entries| :: !WellFormedEntry(entries[k])
  }

  /**
   * The listing of a header, stated on the whole sequence of decoded lines:
   * the first bad count in header mode aborts, then the first malformed entry;
   * otherwise names and units are fields 1 and 2 of the entry lines and the
   * info record is what the header-mode lines leave behind.
   */
  function ParseHeader(lines: seq<string>): (r: Result<Listing, HeaderError>)
  {
    var v := VarsStart(lines);
    var entries := EntryLines(lines);
    if HasBadCount(lines[..v]) then Err(BadCount)
    else if HasBadEntry(entries) then Err(MissingFields)
    else Ok(Listing(Column(entries, 1), Column(entries, 2), InfoOf(lines[..v])))
  }

  /** The header lines as text, each decoded with the ASCII-then-Latin-1 fallback. */
  function DecodeAll(raw: seq<seq<byte>>): (lines: seq<string>)
    ensures |lines| == |raw|
  {
    seq(|raw|, k requires 0 <= k < |raw| => DecodeLine(raw[k]))
  }

  /** Still in header mode after the first i lines, and nothing has gone wrong. */
  ghost predicate InHeader(lines: seq<string>, i: nat)
    requires i <= |lines|
  {
    (forall k :: 0 <= k < i ==> lines[k] != "Variables:") &&
    (forall k :: 0 <= k < i ==> !BadCountLine(lines[k]))
  }

  /** In variable-list mode after the first i lines: entries v+1..i-1 were all accepted. */
  ghost predicate InList(lines: seq<string>, v: nat, i: nat)
    requires v < i <= |lines|
  {
    VarsStart(lines) == v &&
    (forall k :: 0 <= k < v ==> !BadCountLine(lines[k])) &&
    (forall k :: v < k < i ==> lines[k] != "Binary:" && WellFormedEntry(lines[k]))
  }

  lemma HeaderStep(lines: seq<string>, i: nat)
    requires i < |lines| && InHeader(lines, i) && lines[i] != "Variables:" && !BadCountLine(lines[i])
    ensures InHeader(lines, i + 1)
    ensures InfoOf(lines[..i + 1]) == Update(InfoOf(lines[..i]), lines[i])
  {
    assert lines[..i + 1][..i] == lines[..i];
  }

  lemma EntersList(lines: seq<string>, i: nat)
    requires i < |lines| && InHeader(lines, i) && lines[i] == "Variables:"
    ensures InList(lines, i, i + 1)
  {
  }

  lemma ListStep(lines: seq<string>, v: nat, i: nat)
    requires v < i < |lines| && InList(lines, v, i)
    requires lines[i] != "Binary:" && WellFormedEntry(lines[i])
    ensures InList(lines, v, i + 1)
    ensures Column(lines[v + 1..i + 1], 1) == Column(lines[v + 1..i], 1) + [Field(lines[i], 1)]
    ensures Column(lines[v + 1..i + 1], 2) == Column(lines[v + 1..i], 2) + [Field(lines[i], 2)]
  {
    assert lines[v + 1..i + 1] == lines[v + 1..i] + [lines[i]];
    ColumnSnoc(lines[v + 1..i], lines[i], 1);
    ColumnSnoc(lines[v + 1..i], lines[i], 2);
  }

  lemma ColumnSnoc(entries: seq<string>, line: string, f: nat)
    ensures Column(entries + [line], f) == Column(entries, f) + [Field(line, f)]
  {
  }

  lemma AbortsOnBadCount(lines: seq<string>, i: nat)
    requires i < |lines| && InHeader(lines, i) && lines[i] != "Variables:" && BadCountLine(lines[i])
    ensures ParseHeader(lines) == Err(BadCount)
  {
    assert VarsStart(lines) > i;
    assert lines[..VarsStart(lines)][i] == lines[i];
  }

  lemma AbortsOnBadEntry(lines: seq<string>, v: nat, i: nat)
    requires v < i < |lines| && InList(lines, v, i)
    requires lines[i] != "Binary:" && !WellFormedEntry(lines[i])
    ensures ParseHeader(lines) == Err(MissingFields)
  {
    assert BinaryStart(lines) > i;
    assert EntryLines(lines)[i - v - 1] == lines[i];
    assert !HasBadCount(lines[..v]);
  }

  lemma EndsInHeader(lines: seq<string>)
    requires InHeader(lines, |lines|)
    ensures ParseHeader(lines) == Ok(Listing([], [], InfoOf(lines[..|lines|])))
  {
    assert VarsStart(lines) == |lines|;
    assert EntryLines(lines) == [];
    assert !HasBadCount(lines[..|lines|]);
    assert Column([], 1) == [];
    var r := ParseHeader(lines);
    assert r.Ok?;
    assert r.value.variables == [];
    assert r.value.units == [];
    assert r.value.info == InfoOf(lines[..|lines|]);
  }

  lemma EndsInList(lines: seq<string>, v: nat, b: nat)
    requires v < b <= |lines| && InList(lines, v, b)
    requires b < |lines| ==> lines[b] == "Binary:"
    ensures BinaryStart(lines) == b
    ensures ParseHeader(lines) ==
      Ok(Listing(Column(lines[v + 1..b], 1), Column(lines[v + 1..b], 2), InfoOf(lines[..v])))
  {
    assert BinaryStart(lines) == b;
    var entries := EntryLines(lines);
    assert entries == lines[v + 1..b];
    assert !HasBadCount(lines[..v]);
    assert !HasBadEntry(entries) by {
      assert forall k :: 0 <= k < |entries| ==> entries[k] == lines[v + 1 + k];
    }
  }

  /**
   * One header-mode line other than "Variables:": the chain of substring tests
   * that fills the info record, failing where int() rejects a count.
   */
  method HeaderLine(info: Info, line: string) returns (r: Result<Info, HeaderError>)
    requires line != "Variables:"
    ensures r.Err? <==> BadCountLine(line)
    ensures r.Ok? ==> r.value == Update(info, line)
  {
    if Contains(line, "Flags:") {
      return Ok(info.(flags := Some(LastToken(line))));
    } else if Contains(line, "No. Variables:") {
      var n := ParseInt(LastToken(line));
      if n.None? {
        return Err(BadCount);
      }
      return Ok(info.(numVars := n));
    } else if Contains(line, "No. Points:") {
      var n := ParseInt(LastToken(line));
      if n.None? {
        return Err(BadCount);
      }
      return Ok(info.(numSamples := n));
    }
    return Ok(info);
  }

  /** get_vars_list on a file given as its raw lines: each is decoded, then the state machine runs. */
  method GetVarsList(raw: seq<seq<byte>>) returns (r: Result<Listing, HeaderError>)
    ensures r == ParseHeader(DecodeAll(raw))
  {
    r := RunHeader(DecodeAll(raw));
  }

  /** The loop of get_vars_list: one pass over the decoded lines with a mode flag, two growing lists and the info record. */
  method RunHeader(lines: seq<string>) returns (r: Result<Listing, HeaderError>)
    ensures r == ParseHeader(lines)
  {
    var variables: seq<string> := [];
    var units: seq<string> := [];
    var info := NoInfo;
    var header := true;
    ghost var v := 0;
    var i := 0;
    while i < |lines|
      invariant 0 <= i <= |lines|
      invariant header ==> InHeader(lines, i) && info == InfoOf(lines[..i])
      invariant header ==> variables == [] && units == []
      invariant !header ==> v < i && InList(lines, v, i) && info == InfoOf(lines[..v])
      invariant !header ==> variables == Column(lines[v + 1..i], 1) && units == Column(lines[v + 1..i], 2)
    {
      var line := lines[i];
      if header {
        if line == "Variables:" {
          EntersList(lines, i);
          header := false;
          v := i;
        } else {
          var next := HeaderLine(info, line);
          if next.Err? {
            AbortsOnBadCount(lines, i);
            return Err(BadCount);
          }
          info := next.value;
        }
        if header {
          HeaderStep(lines, i);
        }
      } else {
        if line == "Binary:" {
          EndsInList(lines, v, i);
          return Ok(Listing(variables, units, info));
        }
        var fields := Split(line, Tab2);
        if |fields| < 3 {
          AbortsOnBadEntry(lines, v, i);
          return Err(MissingFields);
        }
        ListStep(lines, v, i);
        variables := variables + [fields[1]];
        units := units + [fields[2]];
      }
      i := i + 1;
    }
    if header {
      EndsInHeader(lines);
      assert i == |lines|;
    } else {
      EndsInList(lines, v, i);
    }
    return Ok(Listing(variables, units, info));
  }

  // ---------------------------------------------------------------- properties

  /** The last position in hdr holding a line of kind k, if any. */
  function LastOf(hdr: seq<string>, k: Kind): (r: Option<nat>)
    ensures r.Some? ==> r.value < |hdr| && KindOf(hdr[r.value]) == k
    ensures r.Some? ==> forall j :: r.value < j < |hdr| ==> KindOf(hdr[j]) != k
    ensures r.None? ==> forall j :: 0 <= j < |hdr| ==> KindOf(hdr[j]) != k
    decreases |hdr|
  {
    if hdr == [] then None
    else if KindOf(hdr[|hdr| - 1]) == k then Some(|hdr| - 1)
    else LastOf(hdr[..|hdr| - 1], k)
  }

  /** The value a line of the given kind sets, read from the last such line. */
  function TokenOfLast(hdr: seq<string>, k: Kind): Option<string> {
    match LastOf(hdr, k)
    case Some(i) => Some(LastToken(hdr[i]))
    case None => None
  }

  function CountOfLast(hdr: seq<string>, k: Kind): Option<int> {
    match LastOf(hdr, k)
    case Some(i) => ParseInt(LastToken(hdr[i]))
    case None => None
  }

  /**
   * In the info record the last line of each kind wins: flags comes from the
   * last Flags: line, each count from the last line of its kind, and a key no
   * line set stays absent.
   */
  lemma {:induction false} InfoIsLastOfEachKind(hdr: seq<string>)
    ensures InfoOf(hdr).flags == TokenOfLast(hdr, FlagsLine)
    ensures InfoOf(hdr).numVars == CountOfLast(hdr, NumVarsLine)
    ensures InfoOf(hdr).numSamples == CountOfLast(hdr, NumPointsLine)
    decreases |hdr|
  {
    if hdr != [] {
      var init := hdr[..|hdr| - 1];
      InfoIsLastOfEachKind(init);
      forall k | k in {FlagsLine, NumVarsLine, NumPointsLine}
        ensures KindOf(hdr[|hdr| - 1]) != k ==> LastOf(hdr, k) == LastOf(init, k)
        ensures LastOf(init, k).Some? ==> init[LastOf(init, k).value] == hdr[LastOf(init, k).value]
      {
      }
    }
  }

  /** A header-mode line of no recognised kind changes nothing, wherever it stands in the header. */
  lemma OtherLineIgnored(pre: seq<string>, l: string, rest: seq<string>)
    requires forall k :: 0 <= k < |pre| ==> pre[k] != "Variables:"
    requires KindOf(l) == OtherLine
    ensures ParseHeader(pre + [l] + rest) == ParseHeader(pre + rest)
  {
    var a := pre + [l] + rest;
    var b := pre + rest;
    var vr := VarsStart(rest);
    SkipToVariables(pre + [l], rest);
    SkipToVariables(pre, rest);
    assert VarsStart(a) == |pre| + 1 + vr;
    assert VarsStart(b) == |pre| + vr;
    assert a[..VarsStart(a)] == pre + [l] + rest[..vr];
    assert b[..VarsStart(b)] == pre + rest[..vr];
    InfoSkipsOther(pre, l, rest[..vr]);
    assert HasBadCount(a[..VarsStart(a)]) == HasBadCount(b[..VarsStart(b)]) by {
      BadCountSkipsOther(pre, l, rest[..vr]);
    }
  }

  /** Lines before the first "Variables:" line contribute no names and no units. */
  lemma HeaderAddsNoEntries(pre: seq<string>, rest: seq<string>)
    requires forall k :: 0 <= k < |pre| ==> pre[k] != "Variables:"
    ensures EntryLines(pre + rest) == EntryLines(rest)
    ensures ParseHeader(pre + rest).Ok? ==>
      ParseHeader(rest).Ok? &&
      ParseHeader(pre + rest).value.variables == ParseHeader(rest).value.variables &&
      ParseHeader(pre + rest).value.units == ParseHeader(rest).value.units
  {
    var a := pre + rest;
    SkipToVariables(pre, rest);
    var vr := VarsStart(rest);
    assert a[..VarsStart(a)] == pre + rest[..vr];
    BadCountConcat(pre, rest[..vr]);
  }

  /** Parsing stops at the "Binary:" line: whatever follows it has no effect. */
  lemma StopsAtBinary(lines: seq<string>, rest: seq<string>)
    requires VarsStart(lines) < |lines| && BinaryStart(lines) < |lines|
    ensures ParseHeader(lines + rest) == ParseHeader(lines)
  {
    var a := lines + rest;
    IndexOfLinePrefix(lines, rest, "Variables:", 0);
    IndexOfLinePrefix(lines, rest, "Binary:", VarsStart(lines) + 1);
    assert a[..VarsStart(a)] == lines[..VarsStart(lines)];
    assert EntryLines(a) == EntryLines(lines);
  }

  // ---------------------------------------------------------------- helpers for the properties

  /** A search that succeeds inside lines is not affected by what is appended. */
  lemma {:induction false} IndexOfLinePrefix(lines: seq<string>, rest: seq<string>, t: string, from: nat)
    requires from <= |lines| && IndexOfLine(lines, t, from) < |lines|
    ensures IndexOfLine(lines + rest, t, from) == IndexOfLine(lines, t, from)
    decreases |lines| - from
  {
    if lines[from] != t {
      IndexOfLinePrefix(lines, rest, t, from + 1);
    }
  }

  /** A search started in the second part of a concatenation is the search in that part, shifted. */
  lemma {:induction false} IndexOfLineShift(pre: seq<string>, rest: seq<string>, t: string, from: nat)
    requires from <= |rest|
    ensures IndexOfLine(pre + rest, t, |pre| + from) == |pre| + IndexOfLine(rest, t, from)
    decreases |rest| - from
  {
    if from < |rest| && rest[from] != t {
      IndexOfLineShift(pre, rest, t, from + 1);
    }
  }

  /** A search that finds nothing in the first part continues into the second. */
  lemma {:induction false} IndexOfLineSkip(pre: seq<string>, rest: seq<string>, t: string, from: nat)
    requires from <= |pre|
    requires forall k :: from <= k < |pre| ==> pre[k] != t
    ensures IndexOfLine(pre + rest, t, from) == IndexOfLine(pre + rest, t, |pre|)
    decreases |pre| - from
  {
    if from < |pre| {
      IndexOfLineSkip(pre, rest, t, from + 1);
    }
  }

  /** With no "Variables:" line in pre, the sections of pre + rest are those of rest, shifted by |pre|. */
  lemma SkipToVariables(pre: seq<string>, rest: seq<string>)
    requires forall k :: 0 <= k < |pre| ==> pre[k] != "Variables:"
    ensures VarsStart(pre + rest) == |pre| + VarsStart(rest)
    ensures EntryLines(pre + rest) == EntryLines(rest)
  {
    IndexOfLineSkip(pre, rest, "Variables:", 0);
    IndexOfLineShift(pre, rest, "Variables:", 0);
    if VarsStart(rest) < |rest| {
      EntriesShift(pre, rest);
    }
  }

  lemma EntriesShift(pre: seq<string>, rest: seq<string>)
    requires VarsStart(rest) < |rest|
    requires VarsStart(pre + rest) == |pre| + VarsStart(rest)
    ensures EntryLines(pre + rest) == EntryLines(rest)
  {
    var a := pre + rest;
    var vr := VarsStart(rest);
    IndexOfLineShift(pre, rest, "Binary:", vr + 1);
    var br := BinaryStart(rest);
    assert BinaryStart(a) == |pre| + br;
    SliceShift(pre, rest, vr + 1, br);
  }

  lemma SliceShift(pre: seq<string>, rest: seq<string>, i: nat, j: nat)
    requires i <= j <= |rest|
    ensures (pre + rest)[|pre| + i..|pre| + j] == rest[i..j]
  {
  }

  lemma {:induction false} InfoSkipsOther(pre: seq<string>, l: string, h: seq<string>)
    requires KindOf(l) == OtherLine
    ensures InfoOf(pre + [l] + h) == InfoOf(pre + h)
    decreases |h|
  {
    if h == [] {
      assert (pre + [l])[..|pre|] == pre;
      assert pre + [l] + h == pre + [l] && pre + h == pre;
    } else {
      var init := h[..|h| - 1];
      var last := h[|h| - 1];
      InfoSkipsOther(pre, l, init);
      assert pre + [l] + h == (pre + [l] + init) + [last];
      assert pre + h == (pre + init) + [last];
      InfoSnoc(pre + [l] + init, last);
      InfoSnoc(pre + init, last);
    }
  }

  /** Reading one more header-mode line applies its update to the info so far. */
  lemma InfoSnoc(hdr: seq<string>, line: string)
    ensures InfoOf(hdr + [line]) == Update(InfoOf(hdr), line)
  {
    assert (hdr + [line])[..|hdr|] == hdr;
  }

  lemma BadCountSkipsOther(pre: seq<string>, l: string, h: seq<string>)
    requires KindOf(l) == OtherLine
    ensures HasBadCount(pre + [l] + h) == HasBadCount(pre + h)
  {
    BadCountConcat(pre, [l]);
    BadCountConcat(pre + [l], h);
    BadCountConcat(pre, h);
    assert !HasBadCount([l]);
  }

  lemma BadCountConcat(x: seq<string>, y: seq<string>)
    ensures HasBadCount(x + y) == (HasBadCount(x) || HasBadCount(y))
  {
    var a := x + y;
    if HasBadCount(a) {
      var i :| 0 <= i < |a| && BadCountLine(a[i]);
      if i < |x| { assert x[i] == a[i]; } else { assert y[i - |x|] == a[i]; }
    }
    if HasBadCount(y) {
      var i :| 0 <= i < |y| && BadCountLine(y[i]);
      assert a[|x| + i] == y[i];
    }
    if HasBadCount(x) {
      var i :| 0 <= i < |x| && BadCountLine(x[i]);
      assert a[i] == x[i];
    }
  }

  /**
   * The shape of a successful listing: one name and one unit per entry line,
   * fields 1 and 2 of its double-tab split, and the info record of the lines
   * before "Variables:".
   */
  lemma ListingShape(lines: seq<string>)
    requires ParseHeader(lines).Ok?
    ensures var listing := ParseHeader(lines).value;
      |listing.variables| == |listing.units| == |EntryLines(lines)| &&
      listing.info == InfoOf(lines[..VarsStart(lines)]) &&
      forall k :: 0 <= k < |EntryLines(lines)| ==>
        |Split(EntryLines(lines)[k], Tab2)| >= 3 &&
        listing.variables[k] == Split(EntryLines(lines)[k], Tab2)[1] &&
        listing.units[k] == Split(EntryLines(lines)[k], Tab2)[2]
  {
  }
}

=== FILE: loader.dfy ===
/**
 * load_vars: checks the reading mode and the selection, reads the header
 * with get_vars_list, resolves the selection to variable positions, decodes
 * the binary section in 'whole' or 'chunk' mode and returns either a
 * dictionary from names to rows (a selection by name) or the selected rows
 * in order (a selection by index).
 */
module Loader {
  import opened Wrappers
  import opened Text
  import opened Header
  import opened Grid
  import opened Decode

  /**
   * One entry of the selection: a name, an integer index, or something that
   * is neither a string nor a scalar (a nested list, say).
   */
  datatype Selector = Key(name: string) | Index(i: int) | NonScalar

  /** A raw file: its text lines up to the binary section, then the float64 values that follow "Binary:". */
  datatype RawFile<T> = RawFile(lines: seq<seq<byte>>, payload: seq<T>)

  /**
   * The result: for a selection of names, a dictionary given as its keys in
   * insertion order and its contents; for a selection of indices, the rows in
   * selection order.
   */
  datatype WaveformData<T> =
    | ByName(keys: seq<string>, columns: map<string, seq<Sample<T>>>)
    | ByIndex(rows: seq<seq<Sample<T>>>)

  datatype LoadError =
    | BadMode                        // mode is neither 'whole' nor 'chunk'
    | BadSelection                   // the selection is neither all names nor all indices
    | HeaderFailed(e: HeaderError)   // get_vars_list raised
    | UnknownVariable(name: string)  // a selected name is not in the file
    | MissingInfo(key: string)       // the header never set this info key
    | IndexTooLarge                  // the largest selected index is not below num_vars
    | NegativeCount                  // num_vars or num_samples is negative
    | DecodeFailed(d: DecodeError)   // numpy raised while decoding or selecting

  /** What is known once the checks have passed: the selection as positions, the counts and the data type. */
  datatype Plan = Plan(byName: bool, names: seq<string>, idx: seq<int>, nv: nat, ns: nat, isReal: bool)

  // ---------------------------------------------------------------- the selection

  /** Every entry is a string: indexing by keys (vacuously so for an empty selection). */
  predicate AllKeys(sel: seq<Selector>) {
    forall k :: 0 <= k < |sel| ==> sel[k].Key?
  }

  /** Every entry is a scalar, which strings are too. */
  predicate AllScalars(sel: seq<Selector>) {
    forall k :: 0 <= k < |sel| ==> !sel[k].NonScalar?
  }

  predicate AllIndices(sel: seq<Selector>) {
    forall k :: 0 <= k < |sel| ==> sel[k].Index?
  }

  function KeyNames(sel: seq<Selector>): (names: seq<string>)
    requires AllKeys(sel)
    ensures |names| == |sel| && forall k :: 0 <= k < |sel| ==> names[k] == sel[k].name
  {
    seq(|sel|, k requires 0 <= k < |sel| => sel[k].name)
  }

  function IndexValues(sel: seq<Selector>): (idx: seq<int>)
    requires AllIndices(sel)
    ensures |idx| == |sel| && forall k :: 0 <= k < |sel| ==> idx[k] == sel[k].i
  {
    seq(|sel|, k requires 0 <= k < |sel| => sel[k].i)
  }

  /** np.max of a non-empty list of integers. */
  function MaxOf(xs: seq<int>): (m: int)
    requires |xs| > 0
    ensures (exists k :: 0 <= k < |xs| && xs[k] == m) && forall k :: 0 <= k < |xs| ==> xs[k] <= m
  {
    if |xs| == 1 then xs[0]
    else
      var m := MaxOf(xs[..|xs| - 1]);
      assert forall k :: 0 <= k < |xs| - 1 ==> xs[..|xs| - 1][k] == xs[k];
      if xs[|xs| - 1] > m then xs[|xs| - 1] else m
  }

  /** The position of the first selected name missing from the file, if any. */
  function FirstUnknown(names: seq<string>, vars: seq<string>): (r: Option<nat>)
    ensures r.None? <==> forall k :: 0 <= k < |names| ==> names[k] in vars
    ensures r.Some? ==> r.value < |names| && names[r.value] !in vars
    ensures r.Some? ==> forall k :: 0 <= k < r.value ==> names[k] in vars
    decreases |names|
  {
    if names == [] then None
    else if names[0] !in vars then Some(0)
    else match FirstUnknown(names[1..], vars)
      case None => None
      case Some(k) => Some(k + 1)
  }

  /** vars_in_file.index(name): the first position of name. */
  function IndexOf(vars: seq<string>, name: string): (i: nat)
    requires name in vars
    ensures i < |vars| && vars[i] == name
    ensures forall k :: 0 <= k < i ==> vars[k] != name
  {
    if vars[0] == name then 0 else 1 + IndexOf(vars[1..], name)
  }

  /** The position of every selected name. */
  function Positions(vars: seq<string>, names: seq<string>): (idx: seq<int>)
    requires forall k :: 0 <= k < |names| ==> names[k] in vars
    ensures |idx| == |names|
    ensures forall k :: 0 <= k < |names| ==> 0 <= idx[k] < |vars| && vars[idx[k]] == names[k]
  {
    seq(|names|, k requires 0 <= k < |names| => IndexOf(vars, names[k]) as int)
  }

  /** {name: row for name, row in zip(names, rows)}: a name given twice keeps the later row. */
  function ToMap<X>(names: seq<string>, rows: seq<X>): (m: map<string, X>)
    requires |names| == |rows|
    ensures m.Keys == set k | 0 <= k < |names| :: names[k]
    decreases |names|
  {
    if names == [] then map[]
    else
      var n := |names| - 1;
      var m := ToMap(names[..n], rows[..n]);
      assert forall k :: 0 <= k < n ==> names[..n][k] == names[k];
      m[names[n] := rows[n]]
  }

  /**
   * The order of the keys of a dictionary built by inserting names in turn:
   * each name at its first insertion, later repetitions adding nothing.
   */
  function KeyOrder(names: seq<string>): (r: seq<string>)
    ensures forall i, j :: 0 <= i < j < |r| ==> r[i] != r[j]
    ensures forall x :: x in r <==> x in names
    decreases |names|
  {
    if names == [] then []
    else
      var n := |names| - 1;
      var r := KeyOrder(names[..n]);
      assert forall x :: x in names <==> x in names[..n] || x == names[n];
      if names[n] in r then r else r + [names[n]]
  }

  /** The keys come in the order of the first occurrence of each name in the selection. */
  lemma {:induction false} KeyOrderFirstSeen(names: seq<string>)
    ensures forall i, j :: 0 <= i < j < |KeyOrder(names)| ==>
      IndexOf(names, KeyOrder(names)[i]) < IndexOf(names, KeyOrder(names)[j])
    decreases |names|
  {
    if names != [] {
      var n := |names| - 1;
      var init := names[..n];
      var x := names[n];
      assert names == init + [x];
      var r0 := KeyOrder(init);
      var r := KeyOrder(names);
      KeyOrderFirstSeen(init);
      if x !in r0 {
        assert r == r0 + [x];
        assert IndexOf(names, x) == n;
      } else {
        assert r == r0;
      }
      forall i, j | 0 <= i < j < |r| ensures IndexOf(names, r[i]) < IndexOf(names, r[j]) {
        var a := r0[i];
        assert r[i] == a && a in init;
        IndexOfSnoc(init, x, a);
        assert IndexOf(names, a) == IndexOf(init, a) < n;
        if j < |r0| {
          var b := r0[j];
          assert r[j] == b && b in init;
          IndexOfSnoc(init, x, b);
          assert IndexOf(names, b) == IndexOf(init, b);
          assert IndexOf(init, a) < IndexOf(init, b);
        } else {
          assert r[j] == x;
          assert IndexOf(names, x) == n;
        }
      }
    }
  }

  /** Appending a name does not move the first position of a name already present. */
  lemma {:induction false} IndexOfSnoc(init: seq<string>, x: string, y: string)
    requires y in init
    ensures IndexOf(init + [x], y) == IndexOf(init, y)
    decreases |init|
  {
    if init[0] != y {
      assert (init + [x])[1..] == init[1..] + [x];
      IndexOfSnoc(init[1..], x, y);
    }
  }

  // ---------------------------------------------------------------- the checks, in the order load_vars makes them

  /** The checks of load_vars up to the decoding, given the decoded header lines. */
  function Prepare(lines: seq<string>, sel: seq<Selector>): (r: Result<Plan, LoadError>)
  {
    if !AllKeys(sel) && !AllScalars(sel) then Err(BadSelection)
    else match ParseHeader(lines)
      case Err(e) => Err(HeaderFailed(e))
      case Ok(listing) =>
        if AllKeys(sel) then SelectNames(listing, KeyNames(sel))
        else SelectIndices(listing, sel)
  }

  /** A selection by name: every name must be in the file; each stands for its first position. */
  function SelectNames(listing: Listing, names: seq<string>): (r: Result<Plan, LoadError>)
  {
    match FirstUnknown(names, listing.variables)
    case Some(k) => Err(UnknownVariable(names[k]))
    case None => Finish(true, names, Positions(listing.variables, names), listing.info)
  }

  /** A selection by index: all entries must be integers, and the largest below num_vars. */
  function SelectIndices(listing: Listing, sel: seq<Selector>): (r: Result<Plan, LoadError>)
    requires !AllKeys(sel)
  {
    if !AllIndices(sel) then Err(BadSelection)
    else if listing.info.numVars.None? then Err(MissingInfo("num_vars"))
    else if MaxOf(IndexValues(sel)) >= listing.info.numVars.value then Err(IndexTooLarge)
    else Finish(false, [], IndexValues(sel), listing.info)
  }

  /** The header set num_vars, num_samples and datatype, and neither count is negative. */
  predicate CountsKnown(info: Info) {
    info.numVars.Some? && info.numSamples.Some? && info.flags.Some? &&
    info.numVars.value >= 0 && info.numSamples.value >= 0
  }

  /** The info lookups that follow the selection checks. */
  function Finish(byName: bool, names: seq<string>, idx: seq<int>, info: Info): (r: Result<Plan, LoadError>)
    ensures r.Ok? <==> CountsKnown(info)
    ensures r.Ok? ==> info.numVars == Some(r.value.nv as int) && info.numSamples == Some(r.value.ns as int)
    ensures r.Ok? ==> info.flags.Some? && (r.value.isReal <==> info.flags.value == "real")
    ensures r.Ok? ==> r.value.byName == byName && r.value.names == names && r.value.idx == idx
  {
    if info.numVars.None? then Err(MissingInfo("num_vars"))
    else if info.numSamples.None? then Err(MissingInfo("num_samples"))
    else if info.flags.None? then Err(MissingInfo("datatype"))
    else if info.numVars.value < 0 || info.numSamples.value < 0 then Err(NegativeCount)
    else Ok(Plan(byName, names, idx, info.numVars.value, info.numSamples.value, info.flags.value == "real"))
  }

  /** A selection by name becomes the first position of each name in the file. */
  lemma SelectNamesMeaning(listing: Listing, names: seq<string>)
    ensures SelectNames(listing, names).Ok? <==>
      (forall k :: 0 <= k < |names| ==> names[k] in listing.variables) && CountsKnown(listing.info)
    ensures SelectNames(listing, names).Ok? ==> var p := SelectNames(listing, names).value;
      p.byName && p.names == names && |p.idx| == |names| &&
      forall k :: 0 <= k < |names| ==>
        names[k] in listing.variables && p.idx[k] == IndexOf(listing.variables, names[k]) as int
  {
  }

  /** A selection by index keeps its indices, and all of them are below num_vars. */
  lemma SelectIndicesMeaning(listing: Listing, sel: seq<Selector>)
    requires !AllKeys(sel)
    ensures SelectIndices(listing, sel).Ok? <==>
      AllIndices(sel) && CountsKnown(listing.info) &&
      forall k :: 0 <= k < |sel| ==> sel[k].i < listing.info.numVars.value
    ensures SelectIndices(listing, sel).Ok? ==> var p := SelectIndices(listing, sel).value;
      !p.byName && |p.idx| == |sel| &&
      forall k :: 0 <= k < |sel| ==> sel[k] == Index(p.idx[k]) && p.idx[k] < p.nv
  {
    if AllIndices(sel) && listing.info.numVars.Some? {
      var m := MaxOf(IndexValues(sel));
      assert forall k :: 0 <= k < |sel| ==> IndexValues(sel)[k] <= m;
    }
  }

  /**
   * What Prepare guarantees: the header parsed, the selection was all names
   * or all indices and resolved as above, and the counts and the data type
   * come from the info record.
   */
  lemma PrepareMeaning(lines: seq<string>, sel: seq<Selector>)
    requires Prepare(lines, sel).Ok?
    ensures ParseHeader(lines).Ok?
    ensures var p := Prepare(lines, sel).value; var listing := ParseHeader(lines).value;
      listing.info.numVars == Some(p.nv as int) && listing.info.numSamples == Some(p.ns as int) &&
      listing.info.flags.Some? && (p.isReal <==> listing.info.flags.value == "real") &&
      |p.idx| == |sel| &&
      (p.byName <==> AllKeys(sel)) &&
      (p.byName ==> p.names == KeyNames(sel) && p == SelectNames(listing, p.names).value) &&
      (!p.byName ==> !AllKeys(sel) && p == SelectIndices(listing, sel).value)
  {
    var listing := ParseHeader(lines).value;
    if AllKeys(sel) {
      SelectNamesMeaning(listing, KeyNames(sel));
    } else {
      SelectIndicesMeaning(listing, sel);
    }
  }

  /**
   * When the checks pass: the header parses and sets both counts (neither
   * negative) and the data type, and the selection is either all names known
   * to the file or all indices below num_vars.
   */
  lemma PrepareSucceeds(lines: seq<string>, sel: seq<Selector>)
    ensures Prepare(lines, sel).Ok? <==>
      ParseHeader(lines).Ok? && CountsKnown(ParseHeader(lines).value.info) &&
      if AllKeys(sel) then
        forall k :: 0 <= k < |sel| ==> sel[k].name in ParseHeader(lines).value.variables
      else
        AllIndices(sel) && forall k :: 0 <= k < |sel| ==> sel[k].i < ParseHeader(lines).value.info.numVars.value
  {
    if ParseHeader(lines).Ok? {
      var listing := ParseHeader(lines).value;
      if AllKeys(sel) {
        SelectNamesMeaning(listing, KeyNames(sel));
      } else {
        SelectIndicesMeaning(listing, sel);
      }
    }
  }

  // ---------------------------------------------------------------- the whole reader

  /** The rows the chosen mode produces for a plan: whole mode selects rows, chunk mode keeps columns as it reads. */
  function DecodeRows<T>(payload: seq<T>, p: Plan, mode: string): Result<seq<seq<Sample<T>>>, DecodeError> {
    if mode == "whole" then WholeSelect(payload, p.isReal, p.nv, p.ns, p.idx)
    else ChunkSpec(payload, p.isReal, p.nv, p.ns, p.idx)
  }

  function Assemble<T>(p: Plan, rows: seq<seq<Sample<T>>>): WaveformData<T>
    requires |rows| == |p.idx| && (p.byName ==> |p.names| == |p.idx|)
  {
    if p.byName then ByName(KeyOrder(p.names), ToMap(p.names, rows)) else ByIndex(rows)
  }

  /** load_vars on a file, a selection and a mode. */
  function LoadSpec<T>(f: RawFile<T>, sel: seq<Selector>, mode: string): (r: Result<WaveformData<T>, LoadError>)
  {
    if mode != "whole" && mode != "chunk" then Err(BadMode)
    else match Prepare(DecodeAll(f.lines), sel)
      case Err(e) => Err(e)
      case Ok(p) =>
        match DecodeRows(f.payload, p, mode)
        case Err(d) => Err(DecodeFailed(d))
        case Ok(rows) =>
          PrepareShape(DecodeAll(f.lines), sel);
          DecodeRowsShape(f.payload, p, mode);
          Ok(Assemble(p, rows))
  }

  lemma PrepareShape(lines: seq<string>, sel: seq<Selector>)
    requires Prepare(lines, sel).Ok?
    ensures var p := Prepare(lines, sel).value; p.byName ==> |p.names| == |p.idx|
  {
    PrepareMeaning(lines, sel);
  }

  lemma DecodeRowsShape<T>(payload: seq<T>, p: Plan, mode: string)
    requires DecodeRows(payload, p, mode).Ok?
    ensures |DecodeRows(payload, p, mode).value| == |p.idx|
  {
  }

  // ---------------------------------------------------------------- the failures, in the order load_vars raises them

  /** A mode other than 'whole' and 'chunk' is refused before anything else. */
  lemma BadModeFails<T>(f: RawFile<T>, sel: seq<Selector>, mode: string)
    requires mode != "whole" && mode != "chunk"
    ensures LoadSpec(f, sel, mode) == Err(BadMode)
  {
  }

  /**
   * A selection that is neither all names nor all indices is refused: at once
   * when an entry is not a scalar, else at np.max once the header has been read.
   */
  lemma MixedSelectionFails<T>(f: RawFile<T>, sel: seq<Selector>, mode: string)
    requires mode == "whole" || mode == "chunk"
    requires !AllKeys(sel) && !AllIndices(sel)
    requires !AllScalars(sel) || ParseHeader(DecodeAll(f.lines)).Ok?
    ensures LoadSpec(f, sel, mode) == Err(BadSelection)
  {
  }

  /** A header get_vars_list cannot read makes load_vars fail with the same error. */
  lemma HeaderFails<T>(f: RawFile<T>, sel: seq<Selector>, mode: string, e: HeaderError)
    requires mode == "whole" || mode == "chunk"
    requires AllKeys(sel) || AllScalars(sel)
    requires ParseHeader(DecodeAll(f.lines)) == Err(e)
    ensures LoadSpec(f, sel, mode) == Err(HeaderFailed(e))
  {
  }

  /** A selection by name fails on its first name that is not in the file. */
  lemma UnknownNameFails<T>(f: RawFile<T>, sel: seq<Selector>, mode: string, k: nat)
    requires mode == "whole" || mode == "chunk"
    requires AllKeys(sel) && ParseHeader(DecodeAll(f.lines)).Ok?
    requires k < |sel| && sel[k].name !in ParseHeader(DecodeAll(f.lines)).value.variables
    requires forall j :: 0 <= j < k ==> sel[j].name in ParseHeader(DecodeAll(f.lines)).value.variables
    ensures LoadSpec(f, sel, mode) == Err(UnknownVariable(sel[k].name))
  {
    var lines := DecodeAll(f.lines);
    var listing := ParseHeader(lines).value;
    var names := KeyNames(sel);
    FirstUnknownIs(names, listing.variables, k);
    assert Prepare(lines, sel) == SelectNames(listing, names);
  }

  /** The first missing name is the one FirstUnknown reports. */
  lemma FirstUnknownIs(names: seq<string>, vars: seq<string>, k: nat)
    requires k < |names| && names[k] !in vars
    requires forall j :: 0 <= j < k ==> names[j] in vars
    ensures FirstUnknown(names, vars) == Some(k)
  {
  }

  /** A selection by index fails when one of its indices is not below num_vars. */
  lemma IndexTooLargeFails<T>(f: RawFile<T>, sel: seq<Selector>, mode: string, k: nat)
    requires mode == "whole" || mode == "chunk"
    requires AllIndices(sel) && ParseHeader(DecodeAll(f.lines)).Ok?
    requires ParseHeader(DecodeAll(f.lines)).value.info.numVars.Some?
    requires k < |sel| && sel[k].i >= ParseHeader(DecodeAll(f.lines)).value.info.numVars.value
    ensures LoadSpec(f, sel, mode) == Err(IndexTooLarge)
  {
    assert !AllKeys(sel) by {
      assert !sel[k].Key?;
    }
    assert IndexValues(sel)[k] == sel[k].i;
  }

  /**
   * A failure of the mode or selection checks depends on the header lines
   * alone: load_vars then fails with the same error whatever the binary data
   * hold. (A missing datatype key is only noticed in whole mode after the data
   * have been read, at line 122, but it does not depend on them either.)
   */
  lemma ChecksPrecedeData<T>(f: RawFile<T>, g: RawFile<T>, sel: seq<Selector>, mode: string)
    requires f.lines == g.lines
    requires (mode != "whole" && mode != "chunk") || Prepare(DecodeAll(f.lines), sel).Err?
    ensures LoadSpec(f, sel, mode).Err? && LoadSpec(f, sel, mode) == LoadSpec(g, sel, mode)
  {
  }

  /** The membership loop over the selected names. */
  method CheckNames(names: seq<string>, vars: seq<string>) returns (unknown: Option<nat>)
    ensures unknown == FirstUnknown(names, vars)
  {
    for k := 0 to |names|
      invariant forall k' :: 0 <= k' < k ==> names[k'] in vars
    {
      if names[k] !in vars {
        return Some(k);
      }
    }
    return None;
  }

  /** load_vars as written: the checks in order, get_vars_list, then the chosen decoder. */
  method LoadVars<T>(f: RawFile<T>, sel: seq<Selector>, mode: string, zero: T) returns (r: Result<WaveformData<T>, LoadError>)
    ensures r == LoadSpec(f, sel, mode)
  {
    if mode != "whole" && mode != "chunk" {
      return Err(BadMode);
    }
    var plan := PrepareLoad(f.lines, sel);
    if plan.Err? {
      return Err(plan.error);
    }
    var p := plan.value;
    var rows;
    if mode == "whole" {
      var grid := WholeDecode(f.payload, p.isReal, p.nv, p.ns, zero);
      if grid.Err? {
        return Err(DecodeFailed(grid.error));
      }
      rows := Take(grid.value, p.idx);
    } else {
      rows := ChunkDecode(f.payload, p.isReal, p.nv, p.ns, p.idx, zero);
    }
    if rows.Err? {
      return Err(DecodeFailed(rows.error));
    }
    PrepareShape(DecodeAll(f.lines), sel);
    return Ok(Assemble(p, rows.value));
  }

  /** The checks of load_vars before the binary section is read. */
  method PrepareLoad(raw: seq<seq<byte>>, sel: seq<Selector>) returns (r: Result<Plan, LoadError>)
    ensures r == Prepare(DecodeAll(raw), sel)
  {
    var byName := AllKeys(sel);
    if !byName && !AllScalars(sel) {
      return Err(BadSelection);
    }
    var listing := GetVarsList(raw);
    if listing.Err? {
      return Err(HeaderFailed(listing.error));
    }
    var vars := listing.value.variables;
    var info := listing.value.info;
    if byName {
      var names := KeyNames(sel);
      var unknown := CheckNames(names, vars);
      if unknown.Some? {
        return Err(UnknownVariable(names[unknown.value]));
      }
      return Finish(true, names, Positions(vars, names), info);
    }
    if !AllIndices(sel) {
      return Err(BadSelection);
    }
    if info.numVars.None? {
      return Err(MissingInfo("num_vars"));
    }
    if MaxOf(IndexValues(sel)) >= info.numVars.value {
      return Err(IndexTooLarge);
    }
    return Finish(false, [], IndexValues(sel), info);
  }

  // ---------------------------------------------------------------- properties of the whole reader

  /**
   * On data holding exactly num_samples records, with a selection that is
   * not empty (or no sample points and valid indices), both reading modes
   * return the same result.
   */
  lemma ModesAgree<T>(f: RawFile<T>, sel: seq<Selector>)
    requires Prepare(DecodeAll(f.lines), sel).Ok?
    requires var p := Prepare(DecodeAll(f.lines), sel).value;
      |f.payload| == Mul(p.ns, Width(p.isReal, p.nv)) &&
      (p.ns > 0 ==> sel != []) && (p.ns == 0 ==> AllInRange(p.idx, p.nv))
    ensures LoadSpec(f, sel, "chunk") == LoadSpec(f, sel, "whole")
  {
    var p := Prepare(DecodeAll(f.lines), sel).value;
    PrepareMeaning(DecodeAll(f.lines), sel);
    ChunkMatchesWhole(f.payload, p.isReal, p.nv, p.ns, p.idx);
  }

  /**
   * A load in whole mode succeeds exactly when the checks pass, the data hold
   * num_samples records, and every position the selection stands for is a
   * valid row index (num_vars rows).
   */
  lemma WholeLoadSucceeds<T>(f: RawFile<T>, sel: seq<Selector>)
    ensures LoadSpec(f, sel, "whole").Ok? <==>
      Prepare(DecodeAll(f.lines), sel).Ok? &&
      |f.payload| == Mul(Prepare(DecodeAll(f.lines), sel).value.ns,
        Width(Prepare(DecodeAll(f.lines), sel).value.isReal, Prepare(DecodeAll(f.lines), sel).value.nv)) &&
      AllInRange(Prepare(DecodeAll(f.lines), sel).value.idx, Prepare(DecodeAll(f.lines), sel).value.nv)
  {
    if Prepare(DecodeAll(f.lines), sel).Ok? {
      var p := Prepare(DecodeAll(f.lines), sel).value;
      WholeIsRecords(f.payload, p.isReal, p.nv, p.ns);
    }
  }

  /**
   * Under the hypotheses of ModesAgree, with valid indices, load_vars
   * succeeds in either mode.
   */
  lemma LoadSucceeds<T>(f: RawFile<T>, sel: seq<Selector>, mode: string)
    requires mode == "whole" || mode == "chunk"
    requires Prepare(DecodeAll(f.lines), sel).Ok?
    requires var p := Prepare(DecodeAll(f.lines), sel).value;
      |f.payload| == Mul(p.ns, Width(p.isReal, p.nv)) && AllInRange(p.idx, p.nv) && (p.ns > 0 ==> sel != [])
    ensures LoadSpec(f, sel, mode).Ok?
  {
    WholeLoadSucceeds(f, sel);
    ModesAgree(f, sel);
  }

  /** row holds, at every sample point s, the value that index i selects from record s. */
  ghost predicate RowOf<T>(payload: seq<T>, p: Plan, row: seq<Sample<T>>, i: int) {
    |row| == p.ns &&
    forall s :: 0 <= s < p.ns ==> Selects(SampleValues(payload, p.isReal, p.nv, s), i, row[s])
  }

  /** vals[i] is x, numpy's negative indices included. */
  ghost predicate Selects<X>(vals: seq<X>, i: int, x: X) {
    InRange(i, |vals|) && vals[Wrap(i, |vals|)] == x
  }

  /**
   * A successful load by name maps exactly the selected names, and each to
   * the values of its variable (its first position in the file) in every
   * sample record, whichever mode read them.
   */
  lemma ByNameMeaning<T>(f: RawFile<T>, sel: seq<Selector>, mode: string)
    requires LoadSpec(f, sel, mode).Ok? && LoadSpec(f, sel, mode).value.ByName?
    ensures Prepare(DecodeAll(f.lines), sel).Ok? && ParseHeader(DecodeAll(f.lines)).Ok?
    ensures LoadSpec(f, sel, mode).value.columns.Keys == set k | 0 <= k < |sel| :: sel[k].name
    ensures AllKeys(sel) && LoadSpec(f, sel, mode).value.keys == KeyOrder(KeyNames(sel))
    ensures var vars := ParseHeader(DecodeAll(f.lines)).value.variables;
      var m := LoadSpec(f, sel, mode).value.columns;
      forall name :: name in m ==>
        name in vars && RowOf(f.payload, Prepare(DecodeAll(f.lines), sel).value, m[name], IndexOf(vars, name))
  {
    var lines := DecodeAll(f.lines);
    var listing := ParseHeader(lines);
    var p := Prepare(lines, sel).value;
    PrepareMeaning(lines, sel);
    assert p.byName;
    SelectNamesMeaning(listing.value, p.names);
    var rows := DecodeRows(f.payload, p, mode).value;
    RowsAreRecords(f.payload, p, mode);
    var m := ToMap(p.names, rows);
    assert LoadSpec(f, sel, mode).value.columns == m;
    forall name | name in m
      ensures name in listing.value.variables && RowOf(f.payload, p, m[name], IndexOf(listing.value.variables, name))
    {
      var j := ToMapSource(p.names, rows, name);
    }
  }

  /**
   * A successful load by index returns one row per selected index, in
   * selection order, each holding that variable's value in every record.
   */
  lemma ByIndexMeaning<T>(f: RawFile<T>, sel: seq<Selector>, mode: string)
    requires LoadSpec(f, sel, mode).Ok? && LoadSpec(f, sel, mode).value.ByIndex?
    ensures Prepare(DecodeAll(f.lines), sel).Ok?
    ensures var rows := LoadSpec(f, sel, mode).value.rows;
      |rows| == |sel| &&
      forall j :: 0 <= j < |sel| ==>
        sel[j].Index? && RowOf(f.payload, Prepare(DecodeAll(f.lines), sel).value, rows[j], sel[j].i)
  {
    var lines := DecodeAll(f.lines);
    var p := Prepare(lines, sel).value;
    PrepareMeaning(lines, sel);
    SelectIndicesMeaning(ParseHeader(lines).value, sel);
    RowsAreRecords(f.payload, p, mode);
  }

  /** Each row a successful decode returns holds, for every sample point, the value its index selects from that record. */
  lemma RowsAreRecords<T>(payload: seq<T>, p: Plan, mode: string)
    requires DecodeRows(payload, p, mode).Ok?
    ensures var rows := DecodeRows(payload, p, mode).value;
      |rows| == |p.idx| && forall j :: 0 <= j < |p.idx| ==> RowOf(payload, p, rows[j], p.idx[j])
  {
    var rows := DecodeRows(payload, p, mode).value;
    if mode == "whole" {
      WholeIsRecords(payload, p.isReal, p.nv, p.ns);
      var g := WholeSpec(payload, p.isReal, p.nv, p.ns).value;
      forall j | 0 <= j < |p.idx| ensures RowOf(payload, p, rows[j], p.idx[j]) {
        TakeAt(g, p.idx, j);
      }
    } else {
      forall j | 0 <= j < |p.idx| ensures RowOf(payload, p, rows[j], p.idx[j]) {
        assert forall s :: 0 <= s < p.ns ==> rows[j][s] == ChunkCell(payload, p.isReal, p.nv, p.idx, j, s);
      }
    }
  }

  /** Every key of a ToMap came from some position, whose row it holds. */
  lemma {:induction false} ToMapSource<X>(names: seq<string>, rows: seq<X>, name: string) returns (j: nat)
    requires |names| == |rows| && name in ToMap(names, rows)
    ensures j < |names| && names[j] == name && ToMap(names, rows)[name] == rows[j]
    decreases |names|
  {
    var n := |names| - 1;
    if names[n] == name {
      j := n;
    } else {
      j := ToMapSource(names[..n], rows[..n], name);
    }
  }

  /** A name's value in a ToMap is the row at its last position: a later repetition overwrites an earlier one. */
  lemma {:induction false} ToMapLastWins<X>(names: seq<string>, rows: seq<X>, k: nat)
    requires |names| == |rows| && k < |names|
    requires forall j :: k < j < |names| ==> names[j] != names[k]
    ensures names[k] in ToMap(names, rows) && ToMap(names, rows)[names[k]] == rows[k]
    decreases |names|
  {
    var n := |names| - 1;
    if k < n {
      ToMapLastWins(names[..n], rows[..n], k);
    }
  }

  // ---------------------------------------------------------------- load_vars with the corrected chunk reader

  /** load_vars with chunk mode replaced by CheckedChunk; whole mode is unchanged. */
  function LoadChecked<T>(f: RawFile<T>, sel: seq<Selector>, mode: string): (r: Result<WaveformData<T>, LoadError>)
    ensures mode == "whole" ==> r == LoadSpec(f, sel, mode)
  {
    if mode != "whole" && mode != "chunk" then Err(BadMode)
    else match Prepare(DecodeAll(f.lines), sel)
      case Err(e) => Err(e)
      case Ok(p) =>
        var rows := if mode == "whole" then WholeSelect(f.payload, p.isReal, p.nv, p.ns, p.idx)
          else CheckedChunk(f.payload, p.isReal, p.nv, p.ns, p.idx);
        match rows
        case Err(d) => Err(DecodeFailed(d))
        case Ok(rows) =>
          PrepareShape(DecodeAll(f.lines), sel);
          CheckedChunkMatchesWhole(f.payload, p.isReal, p.nv, p.ns, p.idx);
          Ok(Assemble(p, rows))
  }

  /** With the corrected chunk reader the two modes agree on every file and every selection. */
  lemma CheckedModesAgree<T>(f: RawFile<T>, sel: seq<Selector>)
    ensures LoadChecked(f, sel, "chunk") == LoadChecked(f, sel, "whole")
  {
    if Prepare(DecodeAll(f.lines), sel).Ok? {
      var p := Prepare(DecodeAll(f.lines), sel).value;
      CheckedChunkMatchesWhole(f.payload, p.isReal, p.nv, p.ns, p.idx);
    }
  }
}

=== FILE: text.dfy ===
/**
 * The string handling the header parser relies on: decoding a raw line of bytes
 * (ASCII first, ISO-8859-1 as the fallback), stripping trailing whitespace,
 * substring search, splitting on a separator, and integer conversion.
 * Each follows the behaviour of the corresponding Python built-in.
 */
module Text {
  import opened Wrappers

  newtype byte = x: int | 0 <= x < 256

  /** The characters Python's str.isspace accepts below U+0100. */
  predicate IsSpace(c: char) {
    c as int in {9, 10, 11, 12, 13, 28, 29, 30, 31, 32, 133, 160}
  }

  // ---------------------------------------------------------------- decoding

  /** bytes.decode('ISO-8859-1'): every byte becomes the character with the same code. */
  function DecodeLatin1(b: seq<byte>): (r: string)
    ensures |r| == |b|
    ensures forall k :: 0 <= k < |b| ==> r[k] as int == b[k] as int
  {
    seq(|b|, k requires 0 <= k < |b| => b[k] as int as char)
  }

  /** bytes.decode('ascii'): fails as soon as one byte is outside 0..127. */
  function DecodeAscii(b: seq<byte>): (r: Option<string>)
    ensures r.Some? <==> forall k :: 0 <= k < |b| ==> b[k] < 128
    ensures r.Some? ==> r.value == DecodeLatin1(b)
  {
    if forall k :: 0 <= k < |b| ==> b[k] < 128 then Some(DecodeLatin1(b)) else None
  }

  /** Removes trailing whitespace, as str.rstrip() with no argument. */
  function RStrip(s: string): (r: string)
    ensures |r| <= |s| && r == s[..|r|]
    ensures r == [] || !IsSpace(r[|r| - 1])
    ensures forall k :: |r| <= k < |s| ==> IsSpace(s[k])
  {
    if s != [] && IsSpace(s[|s| - 1]) then RStrip(s[..|s| - 1]) else s
  }

  /**
   * One header line as the reader sees it: the ASCII decoding when it succeeds,
   * else the ISO-8859-1 decoding, right-stripped.
   */
  function DecodeLine(b: seq<byte>): (r: string)
    ensures r == RStrip(DecodeLatin1(b))
  {
    match DecodeAscii(b)
    case Some(s) => RStrip(s)
    case None => RStrip(DecodeLatin1(b))
  }

  /** The inverse of the fallback decoding, on characters below U+0100. */
  function EncodeLatin1(s: string): (b: seq<byte>)
    requires forall k :: 0 <= k < |s| ==> s[k] as int < 256
    ensures |b| == |s|
  {
    seq(|s|, k requires 0 <= k < |s| => s[k] as int as byte)
  }

  /** The fallback decoding never loses information: encoding its result gives the bytes back. */
  lemma Latin1RoundTrip(b: seq<byte>)
    ensures forall k :: 0 <= k < |DecodeLatin1(b)| ==> DecodeLatin1(b)[k] as int < 256
    ensures EncodeLatin1(DecodeLatin1(b)) == b
  {
    var s := DecodeLatin1(b);
    assert forall k :: 0 <= k < |s| ==> EncodeLatin1(s)[k] == b[k];
  }

  // ---------------------------------------------------------------- search

  /** True when sub occurs in s at position i. */
  predicate OccursAt(s: string, sub: string, i: int) {
    0 <= i && i + |sub| <= |s| && s[i..i + |sub|] == sub
  }

  /** The `sub in s` test of Python. */
  predicate Contains(s: string, sub: string) {
    exists i | 0 <= i <= |s| - |sub| :: OccursAt(s, sub, i)
  }

  /** The first position at or after from where sep occurs in s, if any. */
  function Find(s: string, sep: string, from: nat): (r: Option<nat>)
    requires from <= |s|
    ensures r.Some? ==> from <= r.value && OccursAt(s, sep, r.value)
    ensures r.Some? ==> forall i :: from <= i < r.value ==> !OccursAt(s, sep, i)
    ensures r.None? ==> forall i :: from <= i ==> !OccursAt(s, sep, i)
    decreases |s| - from
  {
    if from + |sep| > |s| then None
    else if s[from..from + |sep|] == sep then Some(from)
    else Find(s, sep, from + 1)
  }

  /** The two searches agree: Find from the start succeeds exactly when `sub in s` holds. */
  lemma FindIsContains(s: string, sub: string)
    ensures Find(s, sub, 0).Some? <==> Contains(s, sub)
  {
    var r := Find(s, sub, 0);
    if r.Some? {
      assert OccursAt(s, sub, r.value);
    }
  }

  // ---------------------------------------------------------------- splitting

  /** The fields of s separated by sep, as str.split(sep): leftmost, non-overlapping occurrences. */
  function Split(s: string, sep: string): (r: seq<string>)
    requires |sep| > 0
    ensures |r| >= 1
    ensures Join(r, sep) == s
    decreases |s|
  {
    match Find(s, sep, 0)
    case None => [s]
    case Some(i) =>
      var rest := Split(s[i + |sep|..], sep);
      assert Join([s[..i]] + rest, sep) == s[..i] + sep + Join(rest, sep);
      assert s == s[..i] + sep + s[i + |sep|..];
      [s[..i]] + rest
  }

  /** No field of a split holds the separator: every occurrence was cut at. */
  lemma {:induction false} SplitFieldsFree(s: string, sep: string)
    requires |sep| > 0
    ensures forall k, j :: 0 <= k < |Split(s, sep)| ==> !OccursAt(Split(s, sep)[k], sep, j)
    decreases |s|
  {
    match Find(s, sep, 0)
    case None =>
    case Some(i) =>
      var rest := Split(s[i + |sep|..], sep);
      SplitFieldsFree(s[i + |sep|..], sep);
      assert Split(s, sep) == [s[..i]] + rest;
      forall j | OccursAt(s[..i], sep, j) ensures false {
        assert s[j..j + |sep|] == s[..i][j..j + |sep|];
        assert OccursAt(s, sep, j);
      }
  }

  /**
   * The cuts are the leftmost ones: within a field followed by a cut, the
   * separator first occurs at the cut itself (so "a\t\t\tb" splits on "\t\t"
   * into "a" and "\tb").
   */
  lemma {:induction false} SplitCutsLeftmost(s: string, sep: string)
    requires |sep| > 0
    ensures forall k, j :: 0 <= k < |Split(s, sep)| - 1 && 0 <= j < |Split(s, sep)[k]| ==>
      !OccursAt(Split(s, sep)[k] + sep, sep, j)
    decreases |s|
  {
    match Find(s, sep, 0)
    case None =>
    case Some(i) =>
      var rest := Split(s[i + |sep|..], sep);
      SplitCutsLeftmost(s[i + |sep|..], sep);
      var r := Split(s, sep);
      assert r == [s[..i]] + rest;
      forall j | 0 <= j < i && OccursAt(s[..i] + sep, sep, j) ensures false {
        assert s[..i] + sep == s[..i + |sep|];
        assert s[j..j + |sep|] == (s[..i] + sep)[j..j + |sep|];
        assert OccursAt(s, sep, j);
      }
      forall k, j | 0 <= k < |r| - 1 && 0 <= j < |r[k]|
        ensures !OccursAt(r[k] + sep, sep, j)
      {
        if k > 0 {
          assert r[k] == rest[k - 1];
        }
      }
  }

  /** str.join: the fields with sep between each two of them. */
  function Join(fields: seq<string>, sep: string): (r: string)
    decreases |fields|
  {
    if |fields| == 0 then []
    else if |fields| == 1 then fields[0]
    else fields[0] + sep + Join(fields[1..], sep)
  }

  /** A join ends with its last field. */
  lemma {:induction false} JoinEndsWithLast(fields: seq<string>, sep: string)
    requires |fields| > 0
    ensures var j := Join(fields, sep); var last := fields[|fields| - 1];
      |last| <= |j| && j[|j| - |last|..] == last
    decreases |fields|
  {
    if |fields| > 1 {
      JoinEndsWithLast(fields[1..], sep);
      var rest := Join(fields[1..], sep);
      var j := fields[0] + sep + rest;
      assert j[|fields[0] + sep|..] == rest;
    }
  }

  /** In a join of two fields or more, the separator comes right before the last field. */
  lemma {:induction false} JoinSepBeforeLast(fields: seq<string>, sep: string)
    requires |fields| > 0
    ensures var j := Join(fields, sep); var last := fields[|fields| - 1];
      |fields| > 1 ==> |last| + |sep| <= |j| && j[|j| - |last| - |sep|..|j| - |last|] == sep
    decreases |fields|
  {
    var rest := Join(fields[1..], sep);
    var j := fields[0] + sep + rest;
    var last := fields[|fields| - 1];
    if |fields| == 2 {
      assert rest == last;
      assert j[|j| - |last| - |sep|..|j| - |last|] == j[|fields[0]|..|fields[0] + sep|];
    } else if |fields| > 2 {
      JoinSepBeforeLast(fields[1..], sep);
      assert j[|fields[0] + sep|..] == rest;
      assert j[|j| - |last| - |sep|..|j| - |last|] == rest[|rest| - |last| - |sep|..|rest| - |last|];
    }
  }

  /** The last field of s.split(' '): everything after the last space. */
  function LastToken(s: string): (r: string)
    ensures |r| <= |s| && r == s[|s| - |r|..]
    ensures forall k :: 0 <= k < |r| ==> r[k] != ' '
    ensures |r| == |s| || s[|s| - |r| - 1] == ' '
  {
    var fields := Split(s, " ");
    JoinEndsWithLast(fields, " ");
    JoinSepBeforeLast(fields, " ");
    SplitFieldsFree(s, " ");
    var r := fields[|fields| - 1];
    assert |fields| > 1 ==> s[|s| - |r| - 1..|s| - |r|] == " ";
    NoSpaceInField(r);
    r
  }

  /** A field with no occurrence of " " has no space character. */
  lemma NoSpaceInField(r: string)
    requires forall j :: !OccursAt(r, " ", j)
    ensures forall k :: 0 <= k < |r| ==> r[k] != ' '
  {
    forall k | 0 <= k < |r| ensures r[k] != ' ' {
      assert !OccursAt(r, " ", k);
      assert r[k..k + 1] == [r[k]];
    }
  }

  // ---------------------------------------------------------------- integers

  /**
   * The whitespace int() skips around its digits: ASCII whitespace, and U+0085
   * and U+00A0, which it maps to a space before parsing. Unlike str.isspace it
   * does not skip U+001C to U+001F.
   */
  predicate IsIntSpace(c: char) {
    c as int in {9, 10, 11, 12, 13, 32, 133, 160}
  }

  /** The number of such whitespace characters s starts with. */
  function LeadingSpaces(s: string): (n: nat)
    ensures n <= |s| && (forall k :: 0 <= k < n ==> IsIntSpace(s[k])) && (n < |s| ==> !IsIntSpace(s[n]))
    decreases |s|
  {
    if s != [] && IsIntSpace(s[0]) then 1 + LeadingSpaces(s[1..]) else 0
  }

  /** The number of such whitespace characters s ends with. */
  function TrailingSpaces(s: string): (n: nat)
    ensures n <= |s| && (forall k :: |s| - n <= k < |s| ==> IsIntSpace(s[k]))
    ensures n < |s| ==> !IsIntSpace(s[|s| - n - 1])
    decreases |s|
  {
    if s != [] && IsIntSpace(s[|s| - 1]) then 1 + TrailingSpaces(s[..|s| - 1]) else 0
  }

  /**
   * The text int() parses: the slice of s between its leading and its
   * trailing whitespace, in the sense of IsIntSpace.
   */
  function IntTrim(s: string): (r: string)
    ensures LeadingSpaces(s) + |r| <= |s| && r == s[LeadingSpaces(s)..LeadingSpaces(s) + |r|]
    ensures forall k :: LeadingSpaces(s) + |r| <= k < |s| ==> IsIntSpace(s[k])
    ensures r == [] || (!IsIntSpace(r[0]) && !IsIntSpace(r[|r| - 1]))
  {
    var t := s[LeadingSpaces(s)..];
    t[..|t| - TrailingSpaces(t)]
  }

  predicate IsDigit(c: char) {
    '0' <= c <= '9'
  }

  /**
   * The digit strings Python's int() accepts after the sign: ASCII digits, with
   * single underscores allowed only between two digits.
   */
  predicate WellFormedDigits(d: string) {
    |d| > 0 && IsDigit(d[0]) && IsDigit(d[|d| - 1]) &&
    (forall k :: 0 <= k < |d| ==> IsDigit(d[k]) || d[k] == '_') &&
    (forall k :: 0 <= k < |d| - 1 ==> d[k] == '_' ==> d[k + 1] != '_')
  }

  /** The decimal value of the digits of d, underscores skipped. */
  function DigitsValue(d: string): (n: nat)
    decreases |d|
  {
    if d == [] then 0
    else if d[|d| - 1] == '_' then DigitsValue(d[..|d| - 1])
    else 10 * DigitsValue(d[..|d| - 1]) + if IsDigit(d[|d| - 1]) then d[|d| - 1] as int - '0' as int else 0
  }

  /** int(s) on a string: surrounding whitespace, an optional sign, then well-formed digits. */
  function ParseInt(s: string): (r: Option<int>)
  {
    var t := IntTrim(s);
    if |t| > 0 && (t[0] == '-' || t[0] == '+') then
      if WellFormedDigits(t[1..]) then
        var v: int := DigitsValue(t[1..]);
        Some(if t[0] == '-' then -v else v)
      else None
    else if WellFormedDigits(t) then Some(DigitsValue(t))
    else None
  }

  /** The decimal spelling of n, as str(n) writes it. */
  function ShowNat(n: nat): (r: string)
    ensures |r| > 0 && forall k :: 0 <= k < |r| ==> IsDigit(r[k])
  {
    if n < 10 then ['0' + n as char]
    else ShowNat(n / 10) + ['0' + (n % 10) as char]
  }

  /** The signed decimal spelling of n, as str(n) writes it. */
  function ShowInt(n: int): (r: string)
  {
    if n < 0 then "-" + ShowNat(-n) else ShowNat(n)
  }

  lemma {:induction false} DigitsValueShow(n: nat)
    ensures DigitsValue(ShowNat(n)) == n
  {
    if n >= 10 {
      var d := ShowNat(n);
      assert d[..|d| - 1] == ShowNat(n / 10);
      DigitsValueShow(n / 10);
    }
  }

  /** int() reads back what str() writes: int(str(n)) == n for every integer n. */
  lemma ParseShowRoundTrip(n: int)
    ensures ParseInt(ShowInt(n)) == Some(n)
  {
    var m := if n < 0 then -n else n;
    var d := ShowNat(m);
    ShowNatDigits(m);
    var s := ShowInt(n);
    if n < 0 {
      assert s == "-" + d;
      ParseSigned(d);
    } else {
      assert s == d;
      TrimUnspaced(d);
    }
  }

  /** str(n) of a natural number is a well-formed digit string whose value is n. */
  lemma ShowNatDigits(m: nat)
    ensures WellFormedDigits(ShowNat(m)) && DigitsValue(ShowNat(m)) == m
  {
    DigitsValueShow(m);
  }

  lemma ParseSigned(d: string)
    requires WellFormedDigits(d)
    ensures ParseInt("-" + d) == Some(-(DigitsValue(d) as int))
  {
    var s := "-" + d;
    TrimUnspaced(s);
    assert s[1..] == d;
  }

  /** A string with no whitespace at either end is parsed as it is. */
  lemma TrimUnspaced(s: string)
    requires s != [] && !IsIntSpace(s[0]) && !IsIntSpace(s[|s| - 1])
    ensures IntTrim(s) == s
  {
    assert LeadingSpaces(s) == 0;
    assert s[0..] == s;
    assert TrailingSpaces(s) == 0;
  }

  /**
   * int() does not skip the separator characters U+001C to U+001F that
   * str.isspace accepts: int('\x1c5') raises where str.strip would leave '5'.
   */
  lemma IntRejectsSeparatorSpace()
    ensures IsSpace(28 as char) && !IsIntSpace(28 as char)
    ensures ParseInt([28 as char, '5']) == None
  {
    var s := [28 as char, '5'];
    assert LeadingSpaces(s) == 0;
    assert TrailingSpaces(s) == 0;
    assert IntTrim(s) == s;
    assert !WellFormedDigits(s);
  }
}

=== FILE: wrappers.dfy ===
/** Failure-carrying values shared by every module of the raw-file reader. */
module Wrappers {

  datatype Option<+T> = None | Some(value: T)

  /** Either a value or the error that the reader raises instead of returning one. */
  datatype Result<+R, +E> = Ok(value: R) | Err(error: E)
}
